=== FILE: README.md ===
# microblog: the store rules of a small posting site, in Dafny

microblog is an Express application. Users sign in through Google, pick a
display name, write short posts and like or unlike other people's posts. Its
state lives in three SQLite tables: `users`, `posts` and `likes`. This project
models the decision rules that read and write those tables as pure functions
over an immutable store, and proves properties of them.

- **Store** (`store.dfy`). The tables are sequences of rows in rowid order.
  Each table has an AUTOINCREMENT counter. A lookup returns the first
  matching row, as `db.get` does. `Valid` is the store invariant:
  - the schema's UNIQUE constraints hold;
  - ids stay below their counters, and like ids are unique as well;
  - at most one like row exists per (user, post) pair;
  - every post's `likes` column equals its number of like rows.
- **Like toggle** (`likes.dfy`). `updatePostLikes` deletes or inserts the
  like row and rewrites the counter from the value read before.
- **Posts** (`posts.dfy`). `addPost`, `deletePost` and `getUserPosts`.
- **Accounts** (`accounts.dfy`).
  - `registerUser` and `addUser`;
  - `loginUser`;
  - the store and naming side of `handleAvatar` and `generateAvatar`.
- **Web routes** (`webroutes.dfy`).
  - the POST /posts validation ladder;
  - the POST /register and POST /login session flags;
  - POST /delete/:id behind `isAuthenticated`.
- **Callback** (`apiroutes.dfy`). The flag dispatch of the Google OAuth
  callback.
- **Timestamps** (`timestamp.dfy`, `text.dfy`). `getNewTimeStamp` and the
  JavaScript string behaviour the code relies on.

Time, the identity provider's answer and the hash applied to the provider's
account id are parameters. The clock is a `ClockReading`, the answer is a
`Userinfo`, and the hash is `digest: string -> string`. A handler that throws
is modelled by the state it leaves behind.

## Model

| member | source | states |
|---|---|---|
| Store.FindUserByUsername | helpers/support.js:27-33 | the row found carries the name, and nothing is found exactly when no row has that name |
| Store.FindUserById | helpers/support.js:45-51 | the row found carries the id, and nothing is found exactly when no row has it |
| Store.FindUserByGoogleId | helpers/support.js:54-60 | the row found carries the key, and nothing is found exactly when no row has it |
| Store.FindPostById | helpers/support.js:63-69 | the row found carries the post id, and nothing is found exactly when no post has it |
| Store.HasLikeIffRow | helpers/support.js:203 | the like lookup for (user, post) succeeds exactly when some like row carries that pair |
| Store.EmptyDb | populatedb.js:12-41 | the freshly created empty schema satisfies the store invariant |
| Store.ValidWithSameAccounts | populatedb.js:13-19 | rewriting user columns other than id, username and hashedGoogleId keeps the UNIQUE constraints and the invariant |
| Store.ValidAfterAppendUser | populatedb.js:13-19 | inserting a user with the next AUTOINCREMENT id, a free username and a free key keeps the invariant |
| Store.FindPostByUniqueId | populatedb.js:21-30 | with unique post ids, the lookup by a row's id returns that row |
| Store.FindUserByUniqueId | populatedb.js:13-19 | with unique user ids, the lookup by a row's id returns that row |
| JsText.NatToString | helpers/support.js:297 | a number concatenated into a string renders as at least one decimal digit, and as one digit exactly when it is below 10 |
| JsText.DigitsValueOfNatToString | helpers/support.js:297 | the decimal rendering reads back as the number |
| JsText.NoLeadingZero | helpers/support.js:297 | renderings are unpadded: a leading '0' appears only for zero |
| JsText.ReadNat | helpers/support.js:297 | a number can be read exactly when the text starts with a digit |
| JsText.ReadNatOfRendering | helpers/support.js:297 | reading a rendering followed by a non-digit gives back the number and the rest |
| JsText.ToUpperAscii | helpers/support.js:245 | lower-case ASCII letters map to their capitals; every other character is kept |
| JsText.FirstCharUpper | helpers/support.js:245 | `charAt(0).toUpperCase()` is empty for the empty name and is otherwise the upper-cased first character |
| JsText.IndexOf | helpers/support.js:268 | the index found is the first occurrence; nothing is found exactly when the pattern occurs nowhere |
| JsText.ReplaceFirst | helpers/support.js:268 | `replace` with a string pattern leaves a string without the pattern unchanged, and otherwise replaces exactly the first occurrence, wherever it is, and nothing after it |
| TimeStamp.NewTimeStamp | helpers/support.js:290-299 | the stamp is the year's rendering followed by the other four fields and four separators, with no padding or other characters |
| TimeStamp.ParseStamp | helpers/support.js:297 | every stamp reads back as the year, month index, weekday, hours and minutes it was made from |
| TimeStamp.TimeStampsEqualIff | helpers/support.js:290-299 | two clock readings give the same stamp exactly when they agree on those five fields |
| TimeStamp.SameStampAWeekApart | helpers/support.js:294 | the day field is `getDay`, the weekday, so readings seven days apart at the same time share a stamp |
| TimeStamp.JanuaryFifteenthExample | helpers/support.js:290-299 | Monday 15 January 2024 at 09:05 is stamped "2024-0-1 9:5": unpadded, 0-based month, weekday |
| Likes.DeleteLikeRows | helpers/support.js:207-208 | the DELETE drops exactly the rows of the pair; every other row stays |
| Likes.DeleteLikeRowsCounts | helpers/support.js:207-208 | after the DELETE the pair's rows occur zero times and every other row occurs as often as the table held it |
| Likes.DeleteLikeRowsKeepsBounds | helpers/support.js:207-208 | the DELETE keeps every like id and post id below its AUTOINCREMENT counter |
| Likes.SetPostLikes | helpers/support.js:209-213 | the counter UPDATE sets `likes` on every row with the id, and leaves every other row and column alone |
| Likes.UpdatePostLikes | helpers/support.js:196-218 | no session user: nothing changes. An existing pair row: the likes table becomes exactly what the DELETE leaves, and the post's counter becomes the value read minus 1. No row: exactly one row is appended and the counter becomes the value read plus 1. Only that post's counter changes. With no post row the like row still toggles and the posts table is untouched |
| Likes.CountLikesAfterDelete | helpers/support.js:207-208 | deleting a pair lowers that post's like count by the pair's rows and leaves every other post's count alone |
| Likes.CountPairAfterDelete | helpers/support.js:207-208 | after the DELETE the pair has no rows and every other pair keeps its rows |
| Likes.CountLikesAfterAppend | helpers/support.js:211-212 | the INSERT raises the like count of its post by one and of no other |
| Likes.CountPairAfterAppend | helpers/support.js:211-212 | the INSERT adds one row to its own pair and to no other |
| Likes.DeleteAfterAppend | helpers/support.js:207-212 | deleting a pair right after inserting its only row gives back the likes table |
| Likes.ToggleFlipsOnePair | helpers/support.js:203-213 | a toggle by a signed-in user flips the like status of that user's pair for the post, and of no other pair, whether or not the post exists |
| Likes.DeleteBranchKeepsCounts | helpers/support.js:206-209 | the delete branch keeps one row per pair at most and every counter equal to its row count |
| Likes.AppendBranchKeepsCounts | helpers/support.js:210-213 | the insert branch keeps one row per pair at most and every counter equal to its row count |
| Likes.ToggleKeepsValid | helpers/support.js:196-218 | a toggle on an existing post keeps the store invariant |
| Likes.DeleteBranchKeepsValid | helpers/support.js:206-209 | the store after the DELETE and the counter decrement keeps the invariant |
| Likes.AppendBranchKeepsValid | helpers/support.js:210-213 | the store after the INSERT with the next id and the counter increment keeps the invariant |
| Likes.DeleteLikeRowsKeepsUnique | helpers/support.js:207-208 | the DELETE keeps like ids unique |
| Likes.AppendFreshLikeKeepsUnique | helpers/support.js:211-212 | inserting with the next AUTOINCREMENT id, above every id present, keeps like ids unique |
| Likes.TwiceRestoresPosts | helpers/support.js:203-213 | two toggles by a signed-in user put every post row back exactly |
| Likes.ToggleTwiceRestores | helpers/support.js:203-213 | two toggles restore the posts table and every pair's like status; when the first toggle inserted, the likes table is restored too |
| Likes.ToggleTimes | helpers/support.js:196-218 | repeated toggles keep the post, keep the users, and change no post field other than `likes` |
| Likes.ToggleStep | helpers/support.js:203-213 | one toggle flips the pair and moves that post's counter by one in the matching direction |
| Likes.ToggleParity | helpers/support.js:203-213 | after n toggles the pair is flipped and the counter moved by one when n is odd, and both are as before when n is even |
| Posts.ImageUrl | helpers/support.js:280-286 | `image_url` is empty for an empty image and is '/uploads/' followed by the image otherwise |
| Posts.ImageUrlRoundTrip | helpers/support.js:285 | the image name can be recovered from the stored url |
| Posts.AddPost | helpers/support.js:280-287 | with a user, title and content, exactly one row is appended: the next id, no tag, zero likes, the author's name, the stamp, and the image url of the image argument (empty for an absent or empty image, '/uploads/' + image otherwise). Without a user, or with a missing NOT NULL field, nothing changes |
| Posts.AddPostKeepsValid | helpers/support.js:280-287 | adding a post keeps the store invariant: no like row can name the fresh id |
| Posts.RemovePost | helpers/support.js:224 | the DELETE drops every row with the id and keeps every other row as often as the table held it |
| Posts.RemovePostKeepsUnique | helpers/support.js:224 | the DELETE keeps post ids unique |
| Posts.FindAfterRemove | helpers/support.js:224 | after the DELETE, lookups of every other id answer as before |
| Posts.DeletePost | helpers/support.js:221-229 | the post is gone, every other post stays as often as it was there, and the likes table is untouched, so the deleted post's like rows remain |
| Posts.DeletePostKeepsValid | helpers/support.js:221-229 | deleting keeps the store invariant |
| Posts.UserPosts | helpers/support.js:189-192 | the result holds every post whose author name matches, as often as the table holds it, and no other post |
| Posts.UserPostsAfterAddPost | helpers/support.js:189-192 | a post added by a user appears at the end of that user's list and in no other user's list |
| Accounts.ChosenUsername | helpers/support.js:93 | a present, non-empty chosen name is used; otherwise the provider's name is used |
| Accounts.AddUser | helpers/support.js:120-147 | the INSERT is refused exactly when the name or the key is taken. Otherwise one row is appended with an empty avatar, and the id read back by name is the new AUTOINCREMENT id |
| Accounts.RegisterUser | helpers/support.js:91-117 | an empty name gives InputRequired and a taken name gives UserExists, both leaving store and session unchanged. A clashing key refuses the insert. Otherwise exactly one user is added and the session gets its id with loggedIn set |
| Accounts.RegisterResponse | helpers/support.js:97-112 | each registration outcome has its own answer: '/' exactly for a new account, no answer exactly for a refused INSERT, and a distinct error page for an empty and for a taken name |
| Accounts.RegisterKeepsValid | helpers/support.js:91-147 | registration keeps the store invariant |
| Accounts.RegisteredAccountFound | helpers/support.js:103-106 | after a registration the lookups by name, key and id all find the new row, and the session is signed in |
| Accounts.AvatarUrl | helpers/support.js:237 | the avatar url is '/images/' + name + '.png', and the name can be read back from it |
| Accounts.AvatarUrlInjective | helpers/support.js:237 | different names give different avatar urls |
| Accounts.UpdateAvatarUrl | helpers/support.js:238 | the avatar UPDATE sets the url on every row with the name and leaves every other row alone; the table keeps its length |
| Accounts.UpdateAvatarUrlIdempotent | helpers/support.js:238 | running the avatar UPDATE a second time, as `generateAvatar` does, changes nothing more |
| Accounts.UpdateAvatarUrlAbsent | helpers/support.js:238 | the avatar UPDATE changes nothing when no row has the name |
| Accounts.UpdateAvatarUrlKeepsValid | helpers/support.js:238 | the avatar UPDATE keeps the store invariant |
| Accounts.UpdateAvatarUrlReachesName | helpers/support.js:238 | after the UPDATE the row found by name carries the new url |
| Accounts.GenerateAvatar | helpers/support.js:244-271 | every row with the name gets the url. The glyph is empty exactly for the empty name and is otherwise the upper-cased first character. The returned path is the url with its first './public', wherever it is, removed, and the url itself when it holds none |
| Accounts.HandleAvatar | helpers/support.js:232-241 | `registeringUser` is cleared. With no name the store is untouched. With a name, every row with that name gets '/images/' + name + '.png', and the path `generateAvatar` computes is that url unless the name itself holds './public' |
| Accounts.AvatarUrlHasNoPublicDir | helpers/support.js:268 | an avatar url holds './public' only if the name does |
| Accounts.HandleAvatarKeepsValid | helpers/support.js:232-241 | avatar handling keeps the store invariant |
| Accounts.LoginUser | helpers/support.js:150-173 | no account with the key: a redirect and no sign-in. An account with an empty avatar: the ReferenceError and no sign-in. Otherwise the session gets the account's id. The store is never written |
| Accounts.LoginResponse | helpers/support.js:154-170 | each login outcome has its own answer: '/' exactly for a sign-in, no answer exactly for the missing-avatar error, and the not-found page exactly for an unknown key |
| Accounts.LoginSignsIn | helpers/support.js:150-173 | in a valid store a successful login leaves a session that `isAuthenticated` lets through |
| WebRoutes.Interpolate | helpers/webRoutes.js:75-78 | a missing body field is rendered as "undefined" in the redirect url |
| WebRoutes.CurrentUser | helpers/webRoutes.js:70 | the user found has the session's id, and a user is found whenever one with that id exists |
| WebRoutes.SubmitPost | helpers/webRoutes.js:64-91 | the ladder, in order: both empty, content empty with the title, title empty with the content, each leaving the store unchanged; otherwise `addPost` runs with the tag as image, and the browser is sent to '/' |
| WebRoutes.LadderAnswersDiffer | helpers/webRoutes.js:71-79 | each rung's redirect differs from the others, so exactly one rung answers and the answer names it |
| WebRoutes.SubmitPostAddsIff | helpers/webRoutes.js:71-87 | a post is added exactly when title and content are present and non-empty and the session names an existing user; otherwise the store is unchanged |
| WebRoutes.UploadIgnored | helpers/webRoutes.js:80-86 | the uploaded file name never reaches the store: forms that differ only in the upload have the same effect |
| WebRoutes.TagBecomesImage | helpers/webRoutes.js:81 | an added post's image url comes from the tag field, and its tag column stays NULL |
| WebRoutes.SubmitPostKeepsValid | helpers/webRoutes.js:64-91 | submitting a post keeps the store invariant |
| WebRoutes.RegisterForm | helpers/webRoutes.js:104-112 | the chosen name is stored, `registering` is set, nothing else in the session changes, and the browser goes to /auth/google |
| WebRoutes.LoginForm | helpers/webRoutes.js:115-122 | `loggingIn` is set, nothing else in the session changes, and the browser goes to /auth/google |
| WebRoutes.DeleteRoute | helpers/webRoutes.js:130-136 | a signed-out browser is sent to /login with nothing deleted; a signed-in one deletes the post and gets 200 |
| WebRoutes.DeleteIgnoresAuthor | helpers/webRoutes.js:130-136 | any signed-in user removes any existing post: exactly one row goes and its like rows stay |
| ApiRoutes.GoogleCallback | helpers/apiRoutes.js:35-66 | neither flag: nothing happens and nothing is sent. `registering`: the answer is `registerUser`'s, the store is `registerUser`'s with the avatar UPDATE for `registeringUser` applied, and when an answer is sent the session carries `registerUser`'s sign-in with `registering` and `registeringUser` cleared and `loggingIn` kept. Otherwise `loggingIn`: the store is untouched, the answer is `loginUser`'s, and when an answer is sent the session is exactly the one `loginUser` leaves, so `registering` and `registeringUser` stay as they came. When nothing is sent, the stored session is the one the request brought |
| ApiRoutes.CallbackSetsAvatar | helpers/apiRoutes.js:46-52 | after a registration attempt under a chosen name, whatever its outcome, every account with that name carries the name's avatar url |
| ApiRoutes.CallbackKeepsValid | helpers/apiRoutes.js:35-66 | the callback keeps the store invariant |
| ApiRoutes.RegistrationTakesPrecedence | helpers/apiRoutes.js:46-57 | with both flags set, the outcome is that of a registration, and `loggingIn` stays set |
| ApiRoutes.TakenNameRewritesAvatar | helpers/apiRoutes.js:46-52 | registering under a taken name answers "User already exists", but the avatar step still runs and rewrites the existing account's avatar url |
| ApiRoutes.RegisterFlowAppends | helpers/apiRoutes.js:46-52 | POST /register and the callback, with a free name and key, append exactly the new row with its avatar url, and sign the browser in |
| ApiRoutes.RegisterThenLogin | helpers/apiRoutes.js:46-65 | registering and then logging in with the same provider account signs the browser in as the new account |
| ApiRoutes.EmptyNameFieldLocksAccountOut | helpers/apiRoutes.js:46-65 | when the name field is empty, the account takes the provider's name but its avatar stays empty, so the next login ends in the missing-avatar error and never signs in |
| ApiRoutes.AsWrittenDigest | helpers/support.js:125 | the key as written is "[object Object]" whatever the provider id |
| ApiRoutes.AsWrittenLoginConflates | helpers/support.js:151 | as written, once one account has registered, logging in with any other provider account signs in as that account |
| ApiRoutes.AsWrittenSecondRegistrationFails | helpers/support.js:125 | as written, once one account has registered, a second provider account cannot register: the insert is refused and nothing is answered |
| ApiRoutes.InjectiveLoginSeparates | helpers/support.js:151 | with a digest that tells ids apart, another provider account never signs in as the new account |
| ApiRoutes.InjectiveSecondRegistrationSucceeds | helpers/support.js:125 | with a digest that tells ids apart, a second provider account registers under a free name |

## Left out

- SQLite itself is left out. So are the schema script (populatedb.js, used only to shape the rows and the UNIQUE constraints), the sample data and the ad-hoc query script (sql.js). The tables are sequences and every query is a function.
- Canvas drawing, the random background colour, and the PNG and file streams of `generateAvatar` are left out. They are floating point, randomness and I/O. Only the glyph, the UPDATE and the returned path are modelled.
- The OAuth token exchange, the `googleapis` call and `crypto` are foreign calls. The provider's answer is a `Userinfo` and the hash is a parameter.
- The emoji route, the Express, Handlebars and multer setup, and the GET routes that only render pages are left out. This covers `getPosts`, `getCurrentUser`, `renderProfile`, `logoutUser` and `createUserAvatars`. None of them writes the store, except `createUserAvatars`, a start-up pass over existing users.
- The session store is reduced to one rule. The session kept for the next request is the handler's when a response is sent, and the incoming one when nothing is sent. The `req.session.save` callback's 500 answer on a save error is not modelled; a save always succeeds.
- ApiRoutes.GoogleCallback: the refused INSERT and the missing-avatar ReferenceError reject un-awaited promises that nothing handles. So does the `user.username` TypeError when POST /posts runs without a session user. The model only shows their visible effect: no answer and an unchanged stored session, or for POST /posts an unchanged store. Whether an unhandled rejection also ends the Node process depends on the Node version and its settings, which are not part of this model.
- Concurrency is left out.
  - The toggle is a non-atomic read-modify-write; it is modelled as one sequential step.
  - The callback does not await `registerUser`, so `handleAvatar`'s first UPDATE can run before the INSERT. The two are taken in sequence. `generateAvatar` repeats the UPDATE afterwards, and with one request at a time that gives the same final store.
- POST /like/:id only awaits `updatePostLikes` and never answers. It adds no state beyond `Likes.UpdatePostLikes` and has no separate member.
- Likes.UpdatePostLikes: the post id is a natural number. `parseInt` of a non-numeric path (NaN) and negative ids are not modelled.
- Likes.ToggleKeepsValid, Likes.ToggleTwiceRestores, Likes.ToggleParity: these require the post to exist. A toggle on a missing id is modelled (the like row still toggles, the posts table is untouched), but such a row can name an id at or beyond the post counter. The invariant is stated only for toggles on existing posts.
- JsText.FirstCharUpper: it upper-cases ASCII letters only. JavaScript's `toUpperCase` also maps other scripts, and some characters map to two. A Dafny `char` is a whole Unicode scalar value, while `charAt(0)` returns one UTF-16 code unit. So for a name that starts with a character outside the Basic Multilingual Plane, the code draws a lone surrogate and the model draws the whole character.
- JsText.NatToString: it renders non-negative integers only. `getFullYear` can be negative and `Date` fields are bounded; clock readings are natural numbers.
- Accounts.ChosenUsername: the provider's name is assumed present. With an undefined name and an empty name field, the INSERT would break the NOT NULL constraint; this case is not modelled.
- The schema declares no UNIQUE constraint on likes(user_id, post_id). Nothing enables foreign keys, so no delete cascades, and no handler checks that a post exists. So `Valid` carries "at most one row per pair" as a proved invariant, and deleting a post leaves its like rows behind.

## Findings

| source | as written | input that shows it | evidently intended | confidence | as-written member | corrected member |
|---|---|---|---|---|---|---|
| helpers/support.js:151 | `crypto.createHash('sha256', userinfo.data.id).toString()` treats the id as stream options, and `toString` of a Hash object is "[object Object]", so every login looks up the same key | register with Google id "1", then log in from another browser with Google id "2": the second browser is signed in as the first account | key each account by a digest of its provider id, e.g. `createHash('sha256').update(id).digest('hex')`, so that different ids give different keys | high; not executed | ApiRoutes.AsWrittenLoginConflates | ApiRoutes.InjectiveLoginSeparates |
| helpers/support.js:125 | the same expression stores "[object Object]" as every account's `hashedGoogleId`, a UNIQUE column | register "alice" with Google id "1", then "bob" with Google id "2": bob's INSERT is refused and no answer is sent | each provider account gets its own key, so a second account can register | high; not executed | ApiRoutes.AsWrittenSecondRegistrationFails | ApiRoutes.InjectiveSecondRegistrationSucceeds |

=== FILE: accounts.dfy ===
/** Account handling in helpers/support.js: `registerUser` with `addUser`,
    `loginUser`, and the store and naming side of `handleAvatar` and
    `generateAvatar`. The identity provider's answer is a `Userinfo` value and
    the hash applied to the provider's account id is the parameter `digest`. */
module Accounts {

  import opened Options
  import opened Store
  import opened Sessions
  import opened TimeStamp
  import opened JsText
  import opened Http

  /** The fields of `userinfo.data` the handlers read. */
  datatype Userinfo = Userinfo(googleId: string, name: string, email: string)

  /** `req.session.registeringUser || userinfo.data.name`: an absent or empty
      chosen name falls back to the provider's name. */
  function ChosenUsername(session: Session, info: Userinfo): (name: string)
    ensures session.registeringUser.Some? && session.registeringUser.value != "" ==> name == session.registeringUser.value
    ensures session.registeringUser.None? || session.registeringUser.value == "" ==> name == info.name
  {
    if session.registeringUser.Some? && session.registeringUser.value != "" then session.registeringUser.value
    else info.name
  }

  // ---------------------------------------------------------------------------
  // Lookups after an appended row
  // ---------------------------------------------------------------------------

  lemma {:induction false} FindUserByUsernameAppend(users: seq<User>, x: User, name: string)
    ensures FindUserByUsername(users + [x], name)
         == if FindUserByUsername(users, name).Some? then FindUserByUsername(users, name)
            else if x.username == name then Some(x) else None
  {
    if |users| == 0 {
      assert users + [x] == [x];
    } else {
      assert (users + [x])[1..] == users[1..] + [x];
      FindUserByUsernameAppend(users[1..], x, name);
    }
  }

  lemma {:induction false} FindUserByGoogleIdAppend(users: seq<User>, x: User, key: string)
    ensures FindUserByGoogleId(users + [x], key)
         == if FindUserByGoogleId(users, key).Some? then FindUserByGoogleId(users, key)
            else if x.hashedGoogleId == key then Some(x) else None
  {
    if |users| == 0 {
      assert users + [x] == [x];
    } else {
      assert (users + [x])[1..] == users[1..] + [x];
      FindUserByGoogleIdAppend(users[1..], x, key);
    }
  }

  lemma {:induction false} FindUserByIdAppend(users: seq<User>, x: User, id: nat)
    ensures FindUserById(users + [x], id)
         == if FindUserById(users, id).Some? then FindUserById(users, id)
            else if x.id == id then Some(x) else None
  {
    if |users| == 0 {
      assert users + [x] == [x];
    } else {
      assert (users + [x])[1..] == users[1..] + [x];
      FindUserByIdAppend(users[1..], x, id);
    }
  }

  // ---------------------------------------------------------------------------
  // addUser / registerUser
  // ---------------------------------------------------------------------------

  /** `addUser`: INSERT of (username, key, '', memberSince), then the new id
      read back with `SELECT id FROM users WHERE username = ?`. The UNIQUE
      constraints on `username` and `hashedGoogleId` refuse a clashing row;
      the awaited INSERT then rejects and `addUser` throws (None). The email
      the provider returns is not stored. */
  function AddUser(db: Db, username: string, key: string, now: ClockReading): (r: Option<(Db, nat)>)
    ensures r.None? <==> FindUserByUsername(db.users, username).Some? || FindUserByGoogleId(db.users, key).Some?
    ensures r.Some? ==>
      && r.value.1 == db.nextUserId
      && r.value.0 == db.(users := db.users + [User(db.nextUserId, username, key, "", NewTimeStamp(now))],
                          nextUserId := db.nextUserId + 1)
  {
    if FindUserByUsername(db.users, username).Some? || FindUserByGoogleId(db.users, key).Some? then None
    else
      var row := User(db.nextUserId, username, key, "", NewTimeStamp(now));
      var db' := db.(users := db.users + [row], nextUserId := db.nextUserId + 1);
      FindUserByUsernameAppend(db.users, row, username);
      Some((db', FindUserByUsername(db'.users, username).value.id))
  }

  datatype RegisterOutcome = InputRequired | UserExists | Registered(id: nat) | InsertRejected

  datatype Registration = Registration(db: Db, session: Session, outcome: RegisterOutcome)

  /** The answer `registerUser` sends. A rejected INSERT throws inside the
      un-awaited call, so nothing is sent. */
  function RegisterResponse(o: RegisterOutcome): (r: Response)
    ensures r == Redirect("/") <==> o.Registered?
    ensures r == NoResponse <==> o.InsertRejected?
    ensures r == Redirect("/register?error=Input%20required") <==> o.InputRequired?
    ensures r == Redirect("/register?error=User%20already%20exists") <==> o.UserExists?
  {
    match o
    case InputRequired => Redirect("/register?error=Input%20required")
    case UserExists => Redirect("/register?error=User%20already%20exists")
    case Registered(_) => Redirect("/")
    case InsertRejected => NoResponse
  }

  /** `registerUser`: an empty name is refused, then a taken name; otherwise
      exactly one user row is added and the session is marked logged in as
      that user. */
  function RegisterUser(db: Db, session: Session, info: Userinfo, digest: string -> string, now: ClockReading): (r: Registration)
    ensures
      var name := ChosenUsername(session, info);
      var key := digest(info.googleId);
      && (r.outcome.InputRequired? <==> name == "")
      && (r.outcome.UserExists? <==> name != "" && FindUserByUsername(db.users, name).Some?)
      && (r.outcome.InsertRejected? <==>
            name != "" && FindUserByUsername(db.users, name).None? && FindUserByGoogleId(db.users, key).Some?)
      && (!r.outcome.Registered? ==> r.db == db && r.session == session)
      && (r.outcome.Registered? ==>
            && r.outcome.id == db.nextUserId
            && r.db.users == db.users + [User(db.nextUserId, name, key, "", NewTimeStamp(now))]
            && r.db.posts == db.posts && r.db.likes == db.likes
            && r.db.nextPostId == db.nextPostId && r.db.nextLikeId == db.nextLikeId
            && r.session == session.(userId := Some(r.outcome.id), loggedIn := true))
  {
    var name := ChosenUsername(session, info);
    if name == "" then Registration(db, session, InputRequired)
    else if FindUserByUsername(db.users, name).Some? then Registration(db, session, UserExists)
    else
      match AddUser(db, name, digest(info.googleId), now)
      case None => Registration(db, session, InsertRejected)
      case Some((db', id)) => Registration(db', session.(userId := Some(id), loggedIn := true), Registered(id))
  }

  /** Registration keeps the store invariant: the new row takes the next id,
      and its name and key were checked to be free. */
  lemma RegisterKeepsValid(db: Db, session: Session, info: Userinfo, digest: string -> string, now: ClockReading)
    requires Valid(db)
    ensures Valid(RegisterUser(db, session, info, digest, now).db)
  {
    var r := RegisterUser(db, session, info, digest, now);
    if r.outcome.Registered? {
      ValidAfterAppendUser(db, User(db.nextUserId, ChosenUsername(session, info), digest(info.googleId), "", NewTimeStamp(now)));
    }
  }

  /** After a registration the three lookups by name, key and id all find the
      new row, and a signed-in session for it. */
  lemma RegisteredAccountFound(db: Db, session: Session, info: Userinfo, digest: string -> string, now: ClockReading)
    requires Valid(db)
    ensures
      var r := RegisterUser(db, session, info, digest, now);
      r.outcome.Registered? ==>
        var u := User(r.outcome.id, ChosenUsername(session, info), digest(info.googleId), "", NewTimeStamp(now));
        && FindUserByUsername(r.db.users, u.username) == Some(u)
        && FindUserByGoogleId(r.db.users, u.hashedGoogleId) == Some(u)
        && FindUserById(r.db.users, u.id) == Some(u)
        && SignedIn(r.session)
  {
    var r := RegisterUser(db, session, info, digest, now);
    if r.outcome.Registered? {
      var u := User(r.outcome.id, ChosenUsername(session, info), digest(info.googleId), "", NewTimeStamp(now));
      FindUserByUsernameAppend(db.users, u, u.username);
      FindUserByGoogleIdAppend(db.users, u, u.hashedGoogleId);
      FindUserByIdAppend(db.users, u, u.id);
    }
  }

  // ---------------------------------------------------------------------------
  // Avatars
  // ---------------------------------------------------------------------------

  const ImagesPrefix := "/images/"
  const PngSuffix := ".png"

  /** `'/images/' + username + '.png'` */
  function AvatarUrl(name: string): (url: string)
    ensures |url| == |ImagesPrefix| + |name| + |PngSuffix|
    ensures url[..|ImagesPrefix|] == ImagesPrefix
    ensures url[|url| - |PngSuffix|..] == PngSuffix
    ensures url[|ImagesPrefix|..|url| - |PngSuffix|] == name
  {
    ImagesPrefix + name + PngSuffix
  }

  /** Different names give different avatar urls. */
  lemma AvatarUrlInjective(a: string, b: string)
    ensures AvatarUrl(a) == AvatarUrl(b) ==> a == b
  {
    if AvatarUrl(a) == AvatarUrl(b) {
      assert a == AvatarUrl(a)[|ImagesPrefix|..|AvatarUrl(a)| - |PngSuffix|];
    }
  }

  /** `UPDATE users SET avatar_url = ? WHERE username = ?` */
  function UpdateAvatarUrl(users: seq<User>, name: string, url: string): (r: seq<User>)
    ensures |r| == |users|
    ensures forall i :: 0 <= i < |users| ==>
      r[i] == if users[i].username == name then users[i].(avatarUrl := url) else users[i]
  {
    seq(|users|, i requires 0 <= i < |users| => if users[i].username == name then users[i].(avatarUrl := url) else users[i])
  }

  /** Running the UPDATE a second time changes nothing more. */
  lemma UpdateAvatarUrlIdempotent(users: seq<User>, name: string, url: string)
    ensures UpdateAvatarUrl(UpdateAvatarUrl(users, name, url), name, url) == UpdateAvatarUrl(users, name, url)
  {
    var once := UpdateAvatarUrl(users, name, url);
    var twice := UpdateAvatarUrl(once, name, url);
    assert forall i :: 0 <= i < |twice| ==> twice[i] == once[i];
  }

  /** With no row under the name the UPDATE changes nothing. */
  lemma UpdateAvatarUrlAbsent(users: seq<User>, name: string, url: string)
    requires FindUserByUsername(users, name).None?
    ensures UpdateAvatarUrl(users, name, url) == users
  {
    var r := UpdateAvatarUrl(users, name, url);
    assert forall i :: 0 <= i < |users| ==> r[i] == users[i];
  }

  /** The lookup by key after the UPDATE finds the same row, with its new url
      when the name matches. */
  lemma {:induction false} FindByKeyAfterAvatarUpdate(users: seq<User>, name: string, url: string, key: string)
    ensures
      var f := FindUserByGoogleId(users, key);
      FindUserByGoogleId(UpdateAvatarUrl(users, name, url), key)
        == if f.None? then None
           else if f.value.username == name then Some(f.value.(avatarUrl := url)) else f
  {
    if |users| > 0 {
      var r := UpdateAvatarUrl(users, name, url);
      assert r[1..] == UpdateAvatarUrl(users[1..], name, url);
      FindByKeyAfterAvatarUpdate(users[1..], name, url, key);
    }
  }

  /** The UPDATE touches only avatar urls, so every key and name stays unique. */
  lemma UpdateAvatarUrlKeepsValid(db: Db, name: string, url: string)
    requires Valid(db)
    ensures Valid(db.(users := UpdateAvatarUrl(db.users, name, url)))
  {
    ValidWithSameAccounts(db, UpdateAvatarUrl(db.users, name, url));
  }

  /** After the UPDATE the row found under the name carries the new url. */
  lemma UpdateAvatarUrlReachesName(users: seq<User>, name: string, url: string)
    requires FindUserByUsername(users, name).Some?
    ensures FindUserByUsername(UpdateAvatarUrl(users, name, url), name).Some?
    ensures FindUserByUsername(UpdateAvatarUrl(users, name, url), name).value.avatarUrl == url
  {
    var r := UpdateAvatarUrl(users, name, url);
    var i :| 0 <= i < |users| && users[i].username == name;
    assert r[i].username == name;
    var u := FindUserByUsername(r, name).value;
    var j :| 0 <= j < |r| && r[j] == u;
  }

  /** What `generateAvatar` hands back besides the file it draws: the glyph
      drawn and the url with './public' taken out. */
  datatype Avatar = Avatar(glyph: string, path: string)

  datatype Generated = Generated(db: Db, avatar: Avatar)

  const PublicDir := "./public"

  /** `generateAvatar(username, url)`: the glyph is the first character upper
      cased; the PNG stream is written to `url` (left out), the user's
      `avatar_url` is set to `url`, and the url is returned with the first
      './public' removed. */
  function GenerateAvatar(db: Db, username: string, url: string): (r: Generated)
    ensures r.db == db.(users := UpdateAvatarUrl(db.users, username, url))
    ensures r.avatar.glyph == "" <==> username == ""
    ensures username != "" ==> r.avatar.glyph == [ToUpperAscii(username[0])]
    ensures (forall j: nat :: !OccursAt(url, PublicDir, j)) ==> r.avatar.path == url
    ensures OccursAt(url, PublicDir, 0) ==> r.avatar.path == url[|PublicDir|..]
    ensures IndexOf(url, PublicDir).Some? ==>
      var i := IndexOf(url, PublicDir).value;
      r.avatar.path == url[..i] + url[i + |PublicDir|..]
  {
    Generated(db.(users := UpdateAvatarUrl(db.users, username, url)),
              Avatar(FirstCharUpper(username), ReplaceFirst(url, PublicDir, "")))
  }

  datatype AvatarStep = AvatarStep(db: Db, session: Session, avatar: Option<Avatar>)

  /** `handleAvatar`. `findUserByUsername` is not awaited, so `user` is a
      Promise whose `avatar_url` is undefined and the avatar is always
      (re)generated. The name used is the session's `registeringUser`, which
      is cleared. With no such name the UPDATE matches nothing and
      `generateAvatar` throws on `undefined.charAt`. */
  function HandleAvatar(db: Db, session: Session): (r: AvatarStep)
    ensures r.session == session.(registeringUser := None)
    ensures session.registeringUser.None? ==> r.db == db && r.avatar.None?
    ensures session.registeringUser.Some? ==>
      var name := session.registeringUser.value;
      && r.db == db.(users := UpdateAvatarUrl(db.users, name, AvatarUrl(name)))
      && r.avatar.Some?
      && (r.avatar.value.glyph == "" <==> name == "")
      && ((forall j: nat :: !OccursAt(name, PublicDir, j)) ==> r.avatar.value.path == AvatarUrl(name))
  {
    var session' := session.(registeringUser := None);
    match session.registeringUser
    case None => AvatarStep(db, session', None)
    case Some(name) =>
      var url := AvatarUrl(name);
      var db1 := db.(users := UpdateAvatarUrl(db.users, name, url));
      var g := GenerateAvatar(db1, name, url);
      UpdateAvatarUrlIdempotent(db.users, name, url);
      AvatarUrlHasNoPublicDir(name);
      AvatarStep(g.db, session', Some(g.avatar))
  }

  /** No './public' inside '/images/' + name + '.png' unless the name brings
      one: no '.' of the prefix, and no '.' of the suffix, can start a match. */
  lemma AvatarUrlHasNoPublicDir(name: string)
    ensures (forall j: nat :: !OccursAt(name, PublicDir, j)) ==> forall j: nat :: !OccursAt(AvatarUrl(name), PublicDir, j)
  {
    if forall j: nat :: !OccursAt(name, PublicDir, j) {
      var url := AvatarUrl(name);
      var n := |ImagesPrefix| + |name|;
      assert url[n..] == PngSuffix;
      assert url[|ImagesPrefix|..n] == name;
      forall j: nat ensures !OccursAt(url, PublicDir, j) {
        if j + |PublicDir| <= |url| {
          var w := url[j..j + |PublicDir|];
          if j < |ImagesPrefix| {
            assert w[0] == ImagesPrefix[j] != PublicDir[0];
          } else if j + |PublicDir| <= n {
            var m := j - |ImagesPrefix|;
            assert forall k :: 0 <= k < |PublicDir| ==> w[k] == url[|ImagesPrefix|..n][m + k];
            assert w == name[m..m + |PublicDir|];
            assert !OccursAt(name, PublicDir, m);
          } else {
            assert w[n - j] == url[n] == '.';
            assert PublicDir[n - j] != '.';
          }
        }
      }
    }
  }

  /** Avatar handling keeps the store invariant. */
  lemma HandleAvatarKeepsValid(db: Db, session: Session)
    requires Valid(db)
    ensures Valid(HandleAvatar(db, session).db)
  {
    if session.registeringUser.Some? {
      var name := session.registeringUser.value;
      UpdateAvatarUrlKeepsValid(db, name, AvatarUrl(name));
    }
  }

  // ---------------------------------------------------------------------------
  // loginUser
  // ---------------------------------------------------------------------------

  datatype LoginOutcome = UserNotFound | MissingAvatar | LoggedIn(id: nat)

  datatype Login = Login(session: Session, outcome: LoginOutcome)

  /** The answer `loginUser` sends. The missing-avatar branch reads an
      undeclared `username`, throws, and sends nothing. */
  function LoginResponse(o: LoginOutcome): (r: Response)
    ensures r == Redirect("/") <==> o.LoggedIn?
    ensures r == NoResponse <==> o.MissingAvatar?
    ensures r == Redirect("/login?error=User%20not%20found") <==> o.UserNotFound?
  {
    match o
    case UserNotFound => Redirect("/login?error=User%20not%20found")
    case MissingAvatar => NoResponse
    case LoggedIn(_) => Redirect("/")
  }

  /** `loginUser`: the account is looked up by the digest of the provider id.
      Found with an avatar: the session is marked logged in as it. Found with
      an empty avatar: the ReferenceError leaves the session as it was. Not
      found: a redirect back to the login page. The store is never written. */
  function LoginUser(db: Db, session: Session, info: Userinfo, digest: string -> string): (r: Login)
    ensures
      var found := FindUserByGoogleId(db.users, digest(info.googleId));
      && (r.outcome.UserNotFound? <==> found.None?)
      && (r.outcome.MissingAvatar? <==> found.Some? && found.value.avatarUrl == "")
      && (r.outcome.LoggedIn? ==>
            && found.Some? && found.value.avatarUrl != ""
            && r.outcome.id == found.value.id
            && r.session == session.(userId := Some(found.value.id), loggedIn := true))
      && (!r.outcome.LoggedIn? ==> r.session == session)
  {
    match FindUserByGoogleId(db.users, digest(info.googleId))
    case None => Login(session, UserNotFound)
    case Some(user) =>
      if user.avatarUrl == "" then Login(session, MissingAvatar)
      else Login(session.(userId := Some(user.id), loggedIn := true), LoggedIn(user.id))
  }

  /** In a valid store every account id is truthy, so a successful login
      passes `isAuthenticated` afterwards. */
  lemma LoginSignsIn(db: Db, session: Session, info: Userinfo, digest: string -> string)
    requires Valid(db)
    ensures LoginUser(db, session, info, digest).outcome.LoggedIn? ==> SignedIn(LoginUser(db, session, info, digest).session)
  {
    var found := FindUserByGoogleId(db.users, digest(info.googleId));
    if found.Some? {
      var i :| 0 <= i < |db.users| && db.users[i] == found.value;
    }
  }
}

=== FILE: apiroutes.dfy ===
/** The session-flag dispatch of GET /auth/google/callback
    (helpers/apiRoutes.js), once the provider has answered with `userinfo`.
    The token exchange itself is left out. */
module ApiRoutes {

  import opened Options
  import opened Store
  import opened Sessions
  import opened TimeStamp
  import opened Http
  import opened Accounts
  import opened WebRoutes

  /** The callback. `registering` is checked before `loggingIn`, and only the
      flag acted on is cleared. `registerUser` is not awaited, so the Promise
      it returns is truthy and `handleAvatar` follows every registration
      attempt, whatever its outcome; the two are taken in sequence here.
      With neither flag set nothing is attempted and nothing is sent.
      The session in the reply is the one kept for the next request:
      express-session writes `req.session` back only when a response ends, so
      when the helper throws inside its un-awaited call and nothing is sent,
      the session stays as the request brought it, flags still set. */
  function GoogleCallback(db: Db, session: Session, info: Userinfo, digest: string -> string, now: ClockReading): (r: Reply)
    ensures !session.registering && !session.loggingIn ==> r == Reply(db, session, NoResponse)
    ensures session.registering ==>
      var reg := RegisterUser(db, session.(registering := false), info, digest, now);
      && r.response == RegisterResponse(reg.outcome)
      && r.db == reg.db.(users := if session.registeringUser.None? then reg.db.users
                                  else UpdateAvatarUrl(reg.db.users, session.registeringUser.value, AvatarUrl(session.registeringUser.value)))
      && (r.response == NoResponse ==> r.session == session)
      && (r.response != NoResponse ==>
            && !r.session.registering && r.session.registeringUser.None?
            && r.session.loggingIn == session.loggingIn
            && r.session.userId == reg.session.userId && r.session.loggedIn == reg.session.loggedIn)
    ensures !session.registering && session.loggingIn ==>
      var login := LoginUser(db, session.(loggingIn := false), info, digest);
      && r.db == db
      && r.response == LoginResponse(login.outcome)
      && r.session.userId == login.session.userId && r.session.loggedIn == login.session.loggedIn
      && (r.response == NoResponse ==> r.session == session)
      && (r.response != NoResponse ==> r.session == login.session)
  {
    if session.registering then
      var reg := RegisterUser(db, session.(registering := false), info, digest, now);
      var av := HandleAvatar(reg.db, reg.session);
      var answer := RegisterResponse(reg.outcome);
      assert av.session == reg.session.(registeringUser := None);
      assert !reg.session.registering;
      Reply(av.db, if answer == NoResponse then session else av.session, answer)
    else if session.loggingIn then
      var login := LoginUser(db, session.(loggingIn := false), info, digest);
      var answer := LoginResponse(login.outcome);
      Reply(db, if answer == NoResponse then session else login.session, answer)
    else
      Reply(db, session, NoResponse)
  }

  /** After a registration attempt under a chosen name, every account with
      that name carries the name's avatar url, whatever the outcome. */
  lemma CallbackSetsAvatar(db: Db, session: Session, info: Userinfo, digest: string -> string, now: ClockReading)
    requires session.registering && session.registeringUser.Some?
    ensures
      var r := GoogleCallback(db, session, info, digest, now);
      var name := session.registeringUser.value;
      forall i :: 0 <= i < |r.db.users| && r.db.users[i].username == name ==> r.db.users[i].avatarUrl == AvatarUrl(name)
  {
  }

  /** The callback keeps the store invariant. */
  lemma CallbackKeepsValid(db: Db, session: Session, info: Userinfo, digest: string -> string, now: ClockReading)
    requires Valid(db)
    ensures Valid(GoogleCallback(db, session, info, digest, now).db)
  {
    if session.registering {
      var s := session.(registering := false);
      RegisterKeepsValid(db, s, info, digest, now);
      var reg := RegisterUser(db, s, info, digest, now);
      HandleAvatarKeepsValid(reg.db, reg.session);
    }
  }

  /** With both flags set, registration wins: the `loggingIn` flag has no
      effect on the result except that it stays set. */
  lemma RegistrationTakesPrecedence(db: Db, session: Session, info: Userinfo, digest: string -> string, now: ClockReading)
    requires session.registering
    ensures
      var a := GoogleCallback(db, session, info, digest, now);
      var b := GoogleCallback(db, session.(loggingIn := false), info, digest, now);
      a.db == b.db && a.response == b.response && a.session == b.session.(loggingIn := session.loggingIn)
  {
    var s1 := session.(registering := false);
    var s2 := session.(loggingIn := false, registering := false);
    assert ChosenUsername(s1, info) == ChosenUsername(s2, info);
    var r1 := RegisterUser(db, s1, info, digest, now);
    var r2 := RegisterUser(db, s2, info, digest, now);
    assert r1.db == r2.db && r1.outcome == r2.outcome;
    assert r1.session == r2.session.(loggingIn := session.loggingIn);
    assert r1.session.registeringUser == r2.session.registeringUser;
  }

  /** Registering under a taken name is refused, but the avatar step still
      runs and rewrites the existing account's avatar url. */
  lemma TakenNameRewritesAvatar(db: Db, session: Session, info: Userinfo, digest: string -> string, now: ClockReading)
    requires session.registering && session.registeringUser.Some? && session.registeringUser.value != ""
    requires FindUserByUsername(db.users, session.registeringUser.value).Some?
    ensures
      var name := session.registeringUser.value;
      var r := GoogleCallback(db, session, info, digest, now);
      && r.response == Redirect("/register?error=User%20already%20exists")
      && r.db == db.(users := UpdateAvatarUrl(db.users, name, AvatarUrl(name)))
      && r.session.userId == session.userId
  {
  }

  /** POST /register followed by the callback. */
  function RegisterFlow(db: Db, session: Session, username: Option<string>, info: Userinfo,
                        digest: string -> string, now: ClockReading): Reply
  {
    var form := RegisterForm(db, session, username);
    GoogleCallback(form.db, form.session, info, digest, now)
  }

  /** POST /login followed by the callback. */
  function LoginFlow(db: Db, session: Session, info: Userinfo, digest: string -> string, now: ClockReading): Reply
  {
    var form := LoginForm(db, session);
    GoogleCallback(form.db, form.session, info, digest, now)
  }

  /** The row a successful registration under `name` adds, with the avatar
      url the callback then gives it. */
  function RegisteredRow(db: Db, name: string, key: string, now: ClockReading): User {
    User(db.nextUserId, name, key, AvatarUrl(name), NewTimeStamp(now))
  }

  /** A registration under a free name and a free key appends exactly the
      new row, with its avatar url set, and signs the browser in. */
  lemma RegisterFlowAppends(db: Db, session: Session, name: string, info: Userinfo,
                            digest: string -> string, t1: ClockReading)
    requires Valid(db) && name != ""
    requires FindUserByUsername(db.users, name).None?
    requires FindUserByGoogleId(db.users, digest(info.googleId)).None?
    ensures
      var c1 := RegisterFlow(db, session, Some(name), info, digest, t1);
      && c1.response == Redirect("/")
      && c1.db.users == db.users + [RegisteredRow(db, name, digest(info.googleId), t1)]
      && c1.db.nextUserId == db.nextUserId + 1
      && c1.session.userId == Some(db.nextUserId)
      && !c1.session.registering
  {
    var key := digest(info.googleId);
    var row := User(db.nextUserId, name, key, "", NewTimeStamp(t1));
    var u := UpdateAvatarUrl(db.users + [row], name, AvatarUrl(name));
    assert forall i :: 0 <= i < |db.users| ==> db.users[i].username != name;
    assert forall i :: 0 <= i < |db.users| ==> u[i] == db.users[i];
    assert u == db.users + [RegisteredRow(db, name, key, t1)];
  }

  /** Registering under a free name and a free key, then logging in with the
      same provider account, signs the browser in as the new account. */
  lemma RegisterThenLogin(db: Db, session: Session, name: string, info: Userinfo,
                          digest: string -> string, t1: ClockReading, t2: ClockReading)
    requires Valid(db) && name != ""
    requires FindUserByUsername(db.users, name).None?
    requires FindUserByGoogleId(db.users, digest(info.googleId)).None?
    ensures
      var c1 := RegisterFlow(db, session, Some(name), info, digest, t1);
      var c2 := LoginFlow(c1.db, c1.session, info, digest, t2);
      && c2.response == Redirect("/")
      && c2.session.userId == Some(db.nextUserId)
      && SignedIn(c2.session)
  {
    var key := digest(info.googleId);
    RegisterFlowAppends(db, session, name, info, digest, t1);
    var row := RegisteredRow(db, name, key, t1);
    FindUserByGoogleIdAppend(db.users, row, key);
  }

  /** An empty name field falls back to the provider's name for the account,
      but the avatar step runs for the empty name and touches no row: the new
      account keeps an empty avatar url, and the next login with it ends in
      the missing-avatar error and does not sign in. */
  lemma EmptyNameFieldLocksAccountOut(db: Db, session: Session, info: Userinfo,
                                       digest: string -> string, t1: ClockReading, t2: ClockReading)
    requires Valid(db) && info.name != ""
    requires FindUserByUsername(db.users, info.name).None?
    requires FindUserByGoogleId(db.users, digest(info.googleId)).None?
    ensures
      var c1 := RegisterFlow(db, session, Some(""), info, digest, t1);
      var c2 := LoginFlow(c1.db, c1.session, info, digest, t2);
      && c1.response == Redirect("/")
      && c2.response == NoResponse
      && c2.session.userId == c1.session.userId
  {
    var key := digest(info.googleId);
    var row := User(db.nextUserId, info.name, key, "", NewTimeStamp(t1));
    FindUserByGoogleIdAppend(db.users, row, key);
    FindByKeyAfterAvatarUpdate(db.users + [row], "", AvatarUrl(""), key);
  }

  // ---------------------------------------------------------------------------
  // The identity key. `crypto.createHash('sha256', userinfo.data.id)` treats
  // its second argument as stream options, and `.toString()` of the Hash
  // object is "[object Object]": the stored key is the same for everyone.
  // ---------------------------------------------------------------------------

  const ObjectString := "[object Object]"

  /** The key as written: independent of the provider id. */
  function AsWrittenDigest(id: string): (key: string)
    ensures key == ObjectString
  {
    ObjectString
  }

  /** A digest that tells provider ids apart, as a SHA-256 hex digest of the
      id is meant to. */
  ghost predicate Injective(digest: string -> string) {
    forall a, b :: digest(a) == digest(b) ==> a == b
  }

  /** As written: once an account has registered, logging in with any other
      provider account signs the browser in as that first account. */
  lemma AsWrittenLoginConflates(db: Db, session: Session, alice: string, a: Userinfo, b: Userinfo,
                                t1: ClockReading, t2: ClockReading)
    requires Valid(db) && alice != ""
    requires FindUserByUsername(db.users, alice).None?
    requires FindUserByGoogleId(db.users, ObjectString).None?
    requires a.googleId != b.googleId
    ensures
      var c1 := RegisterFlow(db, session, Some(alice), a, AsWrittenDigest, t1);
      var c2 := LoginFlow(c1.db, Anonymous, b, AsWrittenDigest, t2);
      && c2.response == Redirect("/")
      && c2.session.userId == Some(db.nextUserId)
  {
    RegisterFlowAppends(db, session, alice, a, AsWrittenDigest, t1);
    FindUserByGoogleIdAppend(db.users, RegisteredRow(db, alice, ObjectString, t1), ObjectString);
  }

  /** As written: once an account has registered, no other provider account
      can register under any free name; its key collides, the INSERT is
      refused and no answer is sent. */
  lemma AsWrittenSecondRegistrationFails(db: Db, session: Session, alice: string, bob: string, a: Userinfo, b: Userinfo,
                                         t1: ClockReading, t3: ClockReading)
    requires Valid(db) && alice != "" && bob != "" && bob != alice
    requires FindUserByUsername(db.users, alice).None? && FindUserByUsername(db.users, bob).None?
    requires FindUserByGoogleId(db.users, ObjectString).None?
    requires a.googleId != b.googleId
    ensures
      var c1 := RegisterFlow(db, session, Some(alice), a, AsWrittenDigest, t1);
      var c3 := RegisterFlow(c1.db, Anonymous, Some(bob), b, AsWrittenDigest, t3);
      && c3.response == NoResponse
      && c3.db.users == c1.db.users
      && !SignedIn(c3.session)
  {
    RegisterFlowAppends(db, session, alice, a, AsWrittenDigest, t1);
    var row := RegisteredRow(db, alice, ObjectString, t1);
    FindUserByGoogleIdAppend(db.users, row, ObjectString);
    FindUserByUsernameAppend(db.users, row, bob);
    var c1 := RegisterFlow(db, session, Some(alice), a, AsWrittenDigest, t1);
    var s3 := RegisterForm(c1.db, Anonymous, Some(bob)).session;
    var reg := RegisterUser(c1.db, s3.(registering := false), b, AsWrittenDigest, t3);
    assert reg.outcome == InsertRejected;
    UpdateAvatarUrlAbsent(c1.db.users, bob, AvatarUrl(bob));
  }

  /** Corrected: with a digest that tells ids apart, another provider account
      never lands on the new account. */
  lemma InjectiveLoginSeparates(db: Db, session: Session, alice: string, a: Userinfo, b: Userinfo,
                                digest: string -> string, t1: ClockReading, t2: ClockReading)
    requires Valid(db) && Injective(digest) && alice != ""
    requires FindUserByUsername(db.users, alice).None?
    requires FindUserByGoogleId(db.users, digest(a.googleId)).None?
    requires a.googleId != b.googleId
    ensures
      var c1 := RegisterFlow(db, session, Some(alice), a, digest, t1);
      var c2 := LoginFlow(c1.db, Anonymous, b, digest, t2);
      c2.session.userId != Some(db.nextUserId)
  {
    RegisterFlowAppends(db, session, alice, a, digest, t1);
    var row := RegisteredRow(db, alice, digest(a.googleId), t1);
    var keyB := digest(b.googleId);
    assert keyB != digest(a.googleId);
    FindUserByGoogleIdAppend(db.users, row, keyB);
    var found := FindUserByGoogleId(db.users, keyB);
    if found.Some? {
      var i :| 0 <= i < |db.users| && db.users[i] == found.value;
    }
  }

  /** Corrected: with a digest that tells ids apart, a second provider account
      whose key is free registers under a free name. */
  lemma InjectiveSecondRegistrationSucceeds(db: Db, session: Session, alice: string, bob: string, a: Userinfo, b: Userinfo,
                                            digest: string -> string, t1: ClockReading, t3: ClockReading)
    requires Valid(db) && Injective(digest) && alice != "" && bob != "" && bob != alice
    requires FindUserByUsername(db.users, alice).None? && FindUserByUsername(db.users, bob).None?
    requires FindUserByGoogleId(db.users, digest(a.googleId)).None?
    requires FindUserByGoogleId(db.users, digest(b.googleId)).None?
    requires a.googleId != b.googleId
    ensures
      var c1 := RegisterFlow(db, session, Some(alice), a, digest, t1);
      var c3 := RegisterFlow(c1.db, Anonymous, Some(bob), b, digest, t3);
      && c3.response == Redirect("/")
      && |c3.db.users| == |db.users| + 2
      && SignedIn(c3.session)
  {
    RegisterFlowAppends(db, session, alice, a, digest, t1);
    var row := RegisteredRow(db, alice, digest(a.googleId), t1);
    assert digest(b.googleId) != digest(a.googleId);
    FindUserByGoogleIdAppend(db.users, row, digest(b.googleId));
    FindUserByUsernameAppend(db.users, row, bob);
  }
}

=== FILE: http.dfy ===
/** What a route handler leaves behind: the store, the browser's session and
    the answer sent. */
module Http {

  import opened Store
  import opened Sessions

  /** `res.redirect(url)`, `res.sendStatus(code)`, or nothing at all (the
      handler returns or throws without answering, and the request hangs). */
  datatype Response = Redirect(url: string) | Status(code: nat) | NoResponse

  datatype Reply = Reply(db: Db, session: Session, response: Response)
}

=== FILE: likes.dfy ===
/** `updatePostLikes` (helpers/support.js): the like toggle behind POST
    /like/:id. A like row for (session user, post) is deleted if present and
    inserted otherwise, and the post's `likes` column is rewritten from the
    value read before the change, minus or plus one. Without a session user the
    handler throws before touching a table; the error is caught and logged. */
module Likes {

  import opened Store
  import opened Sessions
  import opened TimeStamp

  /** `DELETE FROM likes WHERE user_id = ? AND post_id = ?` */
  function DeleteLikeRows(likes: seq<Like>, u: nat, p: nat): (r: seq<Like>)
    ensures |r| == |likes| - CountPair(likes, u, p)
    ensures forall l :: l in r <==> l in likes && !(l.userId == u && l.postId == p)
  {
    if |likes| == 0 then []
    else
      assert likes == [likes[0]] + likes[1..];
      (if likes[0].userId == u && likes[0].postId == p then [] else [likes[0]])
        + DeleteLikeRows(likes[1..], u, p)
  }

  /** The DELETE drops every copy of the pair's rows and keeps every other
      row exactly as often as the table held it. */
  lemma {:induction false} DeleteLikeRowsCounts(likes: seq<Like>, u: nat, p: nat)
    ensures forall l :: multiset(DeleteLikeRows(likes, u, p))[l]
                     == if l.userId == u && l.postId == p then 0 else multiset(likes)[l]
  {
    if |likes| > 0 {
      DeleteLikeRowsCounts(likes[1..], u, p);
      assert likes == [likes[0]] + likes[1..];
      assert multiset(likes) == multiset([likes[0]]) + multiset(likes[1..]);
    }
  }

  /** `UPDATE posts SET likes = ? WHERE id = ?` */
  function SetPostLikes(posts: seq<Post>, id: nat, v: int): (r: seq<Post>)
    ensures |r| == |posts|
    ensures forall i :: 0 <= i < |posts| ==> r[i] == if posts[i].id == id then posts[i].(likes := v) else posts[i]
  {
    seq(|posts|, i requires 0 <= i < |posts| => if posts[i].id == id then posts[i].(likes := v) else posts[i])
  }

  /** The `likes` column of the row `findPostById` returns. */
  function PostLikes(posts: seq<Post>, id: nat): int
    requires PostExists(posts, id)
  {
    FindPostById(posts, id).value.likes
  }

  /** The toggle. On a post id with no row the like row is still deleted or
      inserted, and then reading `post.likes` throws before the counter
      update, so the posts table is left alone. */
  function UpdatePostLikes(db: Db, session: Session, postId: nat, now: ClockReading): (r: Db)
    // Only the likes table and the one post's counter change.
    ensures r.users == db.users && r.nextUserId == db.nextUserId && r.nextPostId == db.nextPostId
    ensures |r.posts| == |db.posts|
    ensures forall i :: 0 <= i < |db.posts| ==> r.posts[i] == db.posts[i].(likes := r.posts[i].likes)
    ensures forall i :: 0 <= i < |db.posts| && db.posts[i].id != postId ==> r.posts[i] == db.posts[i]
    ensures !PostExists(db.posts, postId) ==> r.posts == db.posts
    // No session user: nothing is touched.
    ensures !SignedIn(session) ==> r == db
    // Existing row: the pair's rows go, nothing else, and the counter drops by one.
    ensures SignedIn(session) && HasLike(db.likes, session.userId.value, postId) ==>
      && r.nextLikeId == db.nextLikeId
      && r.likes == DeleteLikeRows(db.likes, session.userId.value, postId)
      && (forall i :: 0 <= i < |db.posts| && db.posts[i].id == postId ==>
            r.posts[i].likes == PostLikes(db.posts, postId) - 1)
    // No row: exactly one is appended, and the counter rises by one.
    ensures SignedIn(session) && !HasLike(db.likes, session.userId.value, postId) ==>
      && r.nextLikeId == db.nextLikeId + 1
      && r.likes == db.likes + [Like(db.nextLikeId, session.userId.value, postId, NewTimeStamp(now))]
      && (forall i :: 0 <= i < |db.posts| && db.posts[i].id == postId ==>
            r.posts[i].likes == PostLikes(db.posts, postId) + 1)
  {
    if !SignedIn(session) then db
    else
      var uid := session.userId.value;
      var found := FindPostById(db.posts, postId);
      if HasLike(db.likes, uid, postId) then
        db.(likes := DeleteLikeRows(db.likes, uid, postId),
            posts := if found.None? then db.posts else SetPostLikes(db.posts, postId, found.value.likes - 1))
      else
        db.(likes := db.likes + [Like(db.nextLikeId, uid, postId, NewTimeStamp(now))],
            nextLikeId := db.nextLikeId + 1,
            posts := if found.None? then db.posts else SetPostLikes(db.posts, postId, found.value.likes + 1))
  }

  // ---------------------------------------------------------------------------
  // Counting lemmas for the ledger
  // ---------------------------------------------------------------------------

  lemma {:induction false} CountLikesAfterDelete(likes: seq<Like>, u: nat, p: nat, q: nat)
    ensures CountLikes(DeleteLikeRows(likes, u, p), q)
         == CountLikes(likes, q) - (if q == p then CountPair(likes, u, p) else 0)
  {
    if |likes| > 0 {
      CountLikesAfterDelete(likes[1..], u, p, q);
      var head: seq<Like> := if likes[0].userId == u && likes[0].postId == p then [] else [likes[0]];
      CountLikesOfConcat(head, DeleteLikeRows(likes[1..], u, p), q);
    }
  }

  lemma {:induction false} CountLikesOfConcat(a: seq<Like>, b: seq<Like>, q: nat)
    ensures CountLikes(a + b, q) == CountLikes(a, q) + CountLikes(b, q)
  {
    if |a| > 0 {
      assert (a + b)[1..] == a[1..] + b;
      CountLikesOfConcat(a[1..], b, q);
    } else {
      assert a + b == b;
    }
  }

  lemma {:induction false} CountPairOfConcat(a: seq<Like>, b: seq<Like>, u: nat, p: nat)
    ensures CountPair(a + b, u, p) == CountPair(a, u, p) + CountPair(b, u, p)
  {
    if |a| > 0 {
      assert (a + b)[1..] == a[1..] + b;
      CountPairOfConcat(a[1..], b, u, p);
    } else {
      assert a + b == b;
    }
  }

  lemma {:induction false} CountPairAfterDelete(likes: seq<Like>, u: nat, p: nat, u': nat, p': nat)
    ensures CountPair(DeleteLikeRows(likes, u, p), u', p')
         == if u' == u && p' == p then 0 else CountPair(likes, u', p')
  {
    if |likes| > 0 {
      CountPairAfterDelete(likes[1..], u, p, u', p');
      var head: seq<Like> := if likes[0].userId == u && likes[0].postId == p then [] else [likes[0]];
      CountPairOfConcat(head, DeleteLikeRows(likes[1..], u, p), u', p');
    }
  }

  lemma CountLikesAfterAppend(likes: seq<Like>, x: Like, q: nat)
    ensures CountLikes(likes + [x], q) == CountLikes(likes, q) + (if x.postId == q then 1 else 0)
  {
    CountLikesOfConcat(likes, [x], q);
  }

  lemma CountPairAfterAppend(likes: seq<Like>, x: Like, u: nat, p: nat)
    ensures CountPair(likes + [x], u, p) == CountPair(likes, u, p) + (if x.userId == u && x.postId == p then 1 else 0)
  {
    CountPairOfConcat(likes, [x], u, p);
  }

  /** Deleting the pair's rows right after appending its only row gives back the
      table as it was. */
  lemma {:induction false} DeleteAfterAppend(likes: seq<Like>, x: Like, u: nat, p: nat)
    requires !HasLike(likes, u, p)
    requires x.userId == u && x.postId == p
    ensures DeleteLikeRows(likes + [x], u, p) == likes
  {
    if |likes| == 0 {
      assert likes + [x] == [x];
    } else {
      assert (likes + [x])[1..] == likes[1..] + [x];
      DeleteAfterAppend(likes[1..], x, u, p);
      assert [likes[0]] + likes[1..] == likes;
    }
  }

  // ---------------------------------------------------------------------------
  // Properties of the toggle
  // ---------------------------------------------------------------------------

  /** The toggle flips the like status of the session user's pair for the
      post, and of no other pair. */
  lemma ToggleFlipsOnePair(db: Db, session: Session, postId: nat, now: ClockReading)
    requires SignedIn(session)
    ensures
      var r := UpdatePostLikes(db, session, postId, now);
      && (HasLike(r.likes, session.userId.value, postId) <==> !HasLike(db.likes, session.userId.value, postId))
      && forall u, p :: u != session.userId.value || p != postId ==>
           (HasLike(r.likes, u, p) <==> HasLike(db.likes, u, p))
  {
    var uid := session.userId.value;
    var r := UpdatePostLikes(db, session, postId, now);
    if HasLike(db.likes, uid, postId) {
      assert r.likes == DeleteLikeRows(db.likes, uid, postId);
      forall u, p ensures CountPair(r.likes, u, p) == if u == uid && p == postId then 0 else CountPair(db.likes, u, p) {
        CountPairAfterDelete(db.likes, uid, postId, u, p);
      }
    } else {
      var row := Like(db.nextLikeId, uid, postId, NewTimeStamp(now));
      forall u, p ensures CountPair(r.likes, u, p) == CountPair(db.likes, u, p) + if u == uid && p == postId then 1 else 0 {
        CountPairAfterAppend(db.likes, row, u, p);
      }
    }
  }

  /** The delete branch keeps the ledger invariants: with the pair's single
      row gone and the counter set to the old count minus one, every counter
      still equals its number of rows. */
  lemma DeleteBranchKeepsCounts(posts: seq<Post>, likes: seq<Like>, u: nat, p: nat)
    requires AtMostOneLikePerPair(likes) && LikesCounted(posts, likes) && HasLike(likes, u, p)
    ensures AtMostOneLikePerPair(DeleteLikeRows(likes, u, p))
    ensures LikesCounted(SetPostLikes(posts, p, CountLikes(likes, p) - 1), DeleteLikeRows(likes, u, p))
  {
    var likes' := DeleteLikeRows(likes, u, p);
    var posts' := SetPostLikes(posts, p, CountLikes(likes, p) - 1);
    assert CountPair(likes, u, p) == 1;
    forall u', p' ensures CountPair(likes', u', p') <= 1 {
      CountPairAfterDelete(likes, u, p, u', p');
    }
    forall i | 0 <= i < |posts'| ensures posts'[i].likes == CountLikes(likes', posts'[i].id) {
      CountLikesAfterDelete(likes, u, p, posts[i].id);
    }
  }

  /** The insert branch keeps the ledger invariants. */
  lemma AppendBranchKeepsCounts(posts: seq<Post>, likes: seq<Like>, row: Like)
    requires AtMostOneLikePerPair(likes) && LikesCounted(posts, likes)
    requires !HasLike(likes, row.userId, row.postId)
    ensures AtMostOneLikePerPair(likes + [row])
    ensures LikesCounted(SetPostLikes(posts, row.postId, CountLikes(likes, row.postId) + 1), likes + [row])
  {
    var posts' := SetPostLikes(posts, row.postId, CountLikes(likes, row.postId) + 1);
    forall u, p ensures CountPair(likes + [row], u, p) <= 1 {
      CountPairAfterAppend(likes, row, u, p);
    }
    forall i | 0 <= i < |posts'| ensures posts'[i].likes == CountLikes(likes + [row], posts'[i].id) {
      CountLikesAfterAppend(likes, row, posts[i].id);
    }
  }

  /** The DELETE keeps like ids unique. */
  lemma {:induction false} DeleteLikeRowsKeepsUnique(likes: seq<Like>, u: nat, p: nat)
    requires UniqueLikeIds(likes)
    ensures UniqueLikeIds(DeleteLikeRows(likes, u, p))
  {
    if |likes| > 0 {
      var tail := likes[1..];
      assert UniqueLikeIds(tail) by {
        forall a, b | 0 <= a < b < |tail| ensures tail[a].id != tail[b].id {
          assert tail[a] == likes[a + 1] && tail[b] == likes[b + 1];
        }
      }
      DeleteLikeRowsKeepsUnique(tail, u, p);
      var rest := DeleteLikeRows(tail, u, p);
      if !(likes[0].userId == u && likes[0].postId == p) {
        assert forall l :: l in rest ==> l.id != likes[0].id by {
          forall l | l in rest ensures l.id != likes[0].id {
            assert l in tail;
            var c :| 0 <= c < |tail| && tail[c] == l;
            assert likes[c + 1] == l;
          }
        }
        ConsLikeKeepsUnique(likes[0], rest);
        assert DeleteLikeRows(likes, u, p) == [likes[0]] + rest;
      } else {
        assert DeleteLikeRows(likes, u, p) == rest;
      }
    }
  }

  /** Putting a like row with a fresh id in front keeps ids unique. */
  lemma ConsLikeKeepsUnique(x: Like, rest: seq<Like>)
    requires UniqueLikeIds(rest)
    requires forall l :: l in rest ==> l.id != x.id
    ensures UniqueLikeIds([x] + rest)
  {
    var r := [x] + rest;
    forall a, b | 0 <= a < b < |r| ensures r[a].id != r[b].id {
      if a > 0 {
        assert r[a] == rest[a - 1] && r[b] == rest[b - 1];
      } else {
        assert r[b] in rest;
      }
    }
  }

  /** Appending a row whose id is above every id present keeps like ids
      unique: AUTOINCREMENT hands out `nextLikeId`. */
  lemma AppendFreshLikeKeepsUnique(likes: seq<Like>, row: Like)
    requires UniqueLikeIds(likes)
    requires forall i :: 0 <= i < |likes| ==> likes[i].id < row.id
    ensures UniqueLikeIds(likes + [row])
  {
    var r := likes + [row];
    forall a, b | 0 <= a < b < |r| ensures r[a].id != r[b].id {
      assert r[a] == likes[a];
      if b < |likes| {
        assert r[b] == likes[b];
      }
    }
  }

  /** The toggle keeps the store invariant: at most one like row per pair, and
      every post's counter equal to its number of like rows. */
  lemma ToggleKeepsValid(db: Db, session: Session, postId: nat, now: ClockReading)
    requires Valid(db) && PostExists(db.posts, postId)
    ensures Valid(UpdatePostLikes(db, session, postId, now))
  {
    if SignedIn(session) {
      var uid := session.userId.value;
      var k := PostIndex(db.posts, postId);
      var n := CountLikes(db.likes, postId);
      assert PostLikes(db.posts, postId) == n;
      if HasLike(db.likes, uid, postId) {
        DeleteBranchKeepsValid(db, uid, postId);
      } else {
        var row := Like(db.nextLikeId, uid, postId, NewTimeStamp(now));
        AppendBranchKeepsValid(db, row);
      }
    }
  }

  /** The store after the delete branch satisfies the invariant. */
  lemma DeleteBranchKeepsValid(db: Db, u: nat, p: nat)
    requires Valid(db) && HasLike(db.likes, u, p)
    ensures Valid(db.(likes := DeleteLikeRows(db.likes, u, p),
                      posts := SetPostLikes(db.posts, p, CountLikes(db.likes, p) - 1)))
  {
    DeleteBranchKeepsCounts(db.posts, db.likes, u, p);
    DeleteLikeRowsKeepsUnique(db.likes, u, p);
    DeleteLikeRowsKeepsBounds(db.likes, u, p, db.nextLikeId, db.nextPostId);
  }

  /** The store after the insert branch satisfies the invariant. */
  lemma AppendBranchKeepsValid(db: Db, row: Like)
    requires Valid(db) && row.id == db.nextLikeId && PostExists(db.posts, row.postId)
    requires !HasLike(db.likes, row.userId, row.postId)
    ensures Valid(db.(likes := db.likes + [row], nextLikeId := db.nextLikeId + 1,
                      posts := SetPostLikes(db.posts, row.postId, CountLikes(db.likes, row.postId) + 1)))
  {
    AppendBranchKeepsCounts(db.posts, db.likes, row);
    AppendFreshLikeKeepsUnique(db.likes, row);
  }

  /** The DELETE keeps every like id and post id below its counter. */
  lemma DeleteLikeRowsKeepsBounds(likes: seq<Like>, u: nat, p: nat, nextLikeId: nat, nextPostId: nat)
    requires forall i :: 0 <= i < |likes| ==> likes[i].id < nextLikeId && likes[i].postId < nextPostId
    ensures var r := DeleteLikeRows(likes, u, p);
      forall i :: 0 <= i < |r| ==> r[i].id < nextLikeId && r[i].postId < nextPostId
  {
    var r := DeleteLikeRows(likes, u, p);
    forall i | 0 <= i < |r|
      ensures r[i].id < nextLikeId && r[i].postId < nextPostId
    {
      assert r[i] in likes;
    }
  }

  /** Two toggles by the same user on the same post undo each other: the posts
      table is restored exactly, every pair's like status is restored, and when
      the first toggle inserted the row the likes table is restored exactly.
      (When the first toggle deleted a row, the second inserts a new row with a
      fresh id and timestamp.) */
  lemma ToggleTwiceRestores(db: Db, session: Session, postId: nat, t1: ClockReading, t2: ClockReading)
    requires UniquePostIds(db.posts) && PostExists(db.posts, postId)
    ensures PostExists(UpdatePostLikes(db, session, postId, t1).posts, postId)
    ensures
      var r := UpdatePostLikes(UpdatePostLikes(db, session, postId, t1), session, postId, t2);
      && r.posts == db.posts
      && r.users == db.users
      && (forall u, p :: HasLike(r.likes, u, p) <==> HasLike(db.likes, u, p))
      && (SignedIn(session) && !HasLike(db.likes, session.userId.value, postId) ==> r.likes == db.likes)
  {
    var mid := UpdatePostLikes(db, session, postId, t1);
    var k := PostIndex(db.posts, postId);
    FindPostByUniqueId(db.posts, k);
    assert mid.posts[k].id == postId;
    if SignedIn(session) {
      var uid := session.userId.value;
      TwiceRestoresPosts(db, session, postId, t1, t2, k);
      ToggleFlipsOnePair(db, session, postId, t1);
      ToggleFlipsOnePair(mid, session, postId, t2);
      if !HasLike(db.likes, uid, postId) {
        DeleteAfterAppend(db.likes, mid.likes[|db.likes|], uid, postId);
        assert mid.likes == db.likes + [mid.likes[|db.likes|]];
      }
    }
  }

  /** Two toggles by a signed-in user put every post row back: the counter
      goes down and up (or up and down) by one, and no other row moves. */
  lemma TwiceRestoresPosts(db: Db, session: Session, postId: nat, t1: ClockReading, t2: ClockReading, k: nat)
    requires UniquePostIds(db.posts) && SignedIn(session)
    requires k < |db.posts| && db.posts[k].id == postId
    ensures UpdatePostLikes(UpdatePostLikes(db, session, postId, t1), session, postId, t2).posts == db.posts
  {
    var mid := UpdatePostLikes(db, session, postId, t1);
    ToggleStep(db, session, postId, t1, k);
    ToggleStep(mid, session, postId, t2, k);
    var r := UpdatePostLikes(mid, session, postId, t2);
    forall i | 0 <= i < |db.posts| ensures r.posts[i] == db.posts[i] {
      if i != k {
        assert db.posts[i].id != postId;
      }
    }
  }

  /** n toggles in a row by the same user on the same post. */
  function ToggleTimes(db: Db, session: Session, postId: nat, now: ClockReading, n: nat): (r: Db)
    requires PostExists(db.posts, postId)
    ensures PostExists(r.posts, postId)
    ensures r.users == db.users
    ensures |r.posts| == |db.posts|
    ensures forall i :: 0 <= i < |db.posts| ==> r.posts[i] == db.posts[i].(likes := r.posts[i].likes)
    decreases n
  {
    if n == 0 then db
    else
      var next := UpdatePostLikes(db, session, postId, now);
      assert next.posts[PostIndex(db.posts, postId)].id == postId;
      ToggleTimes(next, session, postId, now, n - 1)
  }

  /** One toggle by a signed-in user flips the pair's like status and moves
      the counter of the post's row (at index k) by one in the matching
      direction. */
  lemma ToggleStep(db: Db, session: Session, postId: nat, now: ClockReading, k: nat)
    requires UniquePostIds(db.posts) && SignedIn(session)
    requires k < |db.posts| && db.posts[k].id == postId
    ensures PostExists(db.posts, postId)
    ensures
      var r := UpdatePostLikes(db, session, postId, now);
      var before := HasLike(db.likes, session.userId.value, postId);
      && UniquePostIds(r.posts)
      && k < |r.posts| && r.posts[k].id == postId
      && (HasLike(r.likes, session.userId.value, postId) <==> !before)
      && r.posts[k].likes == db.posts[k].likes + (if before then -1 else 1)
  {
    FindPostByUniqueId(db.posts, k);
    ToggleFlipsOnePair(db, session, postId, now);
  }

  /** Parity without `%`: n is odd when it is one more than an even number. */
  predicate Odd(n: nat)
    decreases n
  {
    n > 0 && !Odd(n - 1)
  }

  lemma {:induction false} OddIsRemainderOne(n: nat)
    ensures Odd(n) <==> n % 2 == 1
    decreases n
  {
    if n > 0 {
      OddIsRemainderOne(n - 1);
    }
  }

  lemma ToggleTimesUnfold(db: Db, session: Session, postId: nat, now: ClockReading, n: nat)
    requires PostExists(db.posts, postId) && n > 0
    ensures ToggleTimes(db, session, postId, now, n)
         == ToggleTimes(UpdatePostLikes(db, session, postId, now), session, postId, now, n - 1)
  {
  }

  /** An odd number of toggles flips the pair's like status and moves the
      post's counter by one; an even number leaves both as they were. */
  lemma {:induction false} ToggleParity(db: Db, session: Session, postId: nat, now: ClockReading, n: nat, k: nat)
    requires UniquePostIds(db.posts) && SignedIn(session)
    requires k < |db.posts| && db.posts[k].id == postId
    ensures PostExists(db.posts, postId)
    ensures
      var r := ToggleTimes(db, session, postId, now, n);
      var before := HasLike(db.likes, session.userId.value, postId);
      && UniquePostIds(r.posts)
      && (HasLike(r.likes, session.userId.value, postId) <==> (if Odd(n) then !before else before))
      && r.posts[k].likes == db.posts[k].likes + (if !Odd(n) then 0 else if before then -1 else 1)
    decreases n
  {
    FindPostByUniqueId(db.posts, k);
    if n > 0 {
      var next := UpdatePostLikes(db, session, postId, now);
      ToggleStep(db, session, postId, now, k);
      ToggleParity(next, session, postId, now, n - 1, k);
      ToggleTimesUnfold(db, session, postId, now, n);
    }
  }
}

=== FILE: options.dfy ===
/** Optional values: a row lookup that found nothing, or a request field that is
    `undefined` in JavaScript. The three members below let `:-` stop a chain of
    partial steps at the first `None`, as the stamp parser does. */
module Options {

  datatype Option<T> = None | Some(value: T) {

    /** A missing value ends the chain. */
    predicate IsFailure() {
      None?
    }

    /** The chain's result when a step found nothing. */
    function PropagateFailure<U>(): Option<U>
      requires None?
    {
      None
    }

    /** The value a step found. */
    function Extract(): T
      requires Some?
    {
      this.value
    }
  }

}

=== FILE: posts.dfy ===
/** The post operations of helpers/support.js: `addPost` (insert one row),
    `deletePost` (remove a row by id) and `getUserPosts` (one author's rows). */
module Posts {

  import opened Options
  import opened Store
  import opened TimeStamp

  const UploadsPrefix := "/uploads/"

  /** The `image_url` column `addPost` writes for its `image` argument: empty
      for an empty image, the uploads path otherwise. */
  function ImageUrl(image: string): (url: string)
    ensures url == "" <==> image == ""
    ensures image != "" ==>
      && |url| == |UploadsPrefix| + |image|
      && url[..|UploadsPrefix|] == UploadsPrefix
      && url[|UploadsPrefix|..] == image
  {
    if image == "" then "" else UploadsPrefix + image
  }

  /** Recovers the file name from a non-empty `image_url`. */
  function ImageOfUrl(url: string): (image: string)
  {
    if |url| >= |UploadsPrefix| && url[..|UploadsPrefix|] == UploadsPrefix then url[|UploadsPrefix|..] else ""
  }

  /** `ImageOfUrl` inverts `ImageUrl`: no two images share a stored url. */
  lemma ImageUrlRoundTrip(image: string)
    ensures ImageOfUrl(ImageUrl(image)) == image
  {
  }

  /** The row `addPost` would insert: a fresh id, no tag, zero likes. */
  function NewPost(db: Db, title: string, content: string, author: User, image: string, now: ClockReading): Post
  {
    Post(db.nextPostId, title, content, None, ImageUrl(image), author.username, NewTimeStamp(now), 0)
  }

  /** `addPost(title, content, user, image = '')`. An absent `image` takes the
      default ''. A null `user` makes `user.username` throw before the INSERT,
      and an absent title or content breaks a NOT NULL column so the INSERT is
      refused; in all three cases the store is unchanged. The `tag` column is
      never written. */
  function AddPost(db: Db, title: Option<string>, content: Option<string>, user: Option<User>,
                   image: Option<string>, now: ClockReading): (r: Db)
    ensures r.users == db.users && r.likes == db.likes
    ensures r.nextUserId == db.nextUserId && r.nextLikeId == db.nextLikeId
    ensures user.None? || title.None? || content.None? ==> r == db
    ensures user.Some? && title.Some? && content.Some? ==>
      && r.nextPostId == db.nextPostId + 1
      && |r.posts| == |db.posts| + 1
      && r.posts[..|db.posts|] == db.posts
      && var p := r.posts[|db.posts|];
         && p.id == db.nextPostId && p.title == title.value && p.content == content.value
         && p.tag.None? && p.likes == 0 && p.username == user.value.username
         && p.timestamp == NewTimeStamp(now)
         && p.imageUrl == ImageUrl(if image.Some? then image.value else "")
  {
    match (title, content, user)
    case (Some(t), Some(c), Some(u)) =>
      var img := if image.Some? then image.value else "";
      db.(posts := db.posts + [NewPost(db, t, c, u, img, now)], nextPostId := db.nextPostId + 1)
    case _ => db
  }

  /** Nothing refers to a post id at or beyond the counter. */
  lemma {:induction false} CountLikesOfUnused(likes: seq<Like>, q: nat)
    requires forall i :: 0 <= i < |likes| ==> likes[i].postId != q
    ensures CountLikes(likes, q) == 0
  {
    if |likes| > 0 {
      CountLikesOfUnused(likes[1..], q);
    }
  }

  /** A new post starts with zero likes and no like row can name its fresh id,
      so adding it keeps the store invariant. */
  lemma AddPostKeepsValid(db: Db, title: Option<string>, content: Option<string>, user: Option<User>,
                          image: Option<string>, now: ClockReading)
    requires Valid(db)
    ensures Valid(AddPost(db, title, content, user, image, now))
  {
    var r := AddPost(db, title, content, user, image, now);
    if r != db {
      CountLikesOfUnused(db.likes, db.nextPostId);
      assert r.posts == db.posts + [r.posts[|db.posts|]];
      assert LikesCounted(r.posts, r.likes) by {
        forall i | 0 <= i < |r.posts| ensures r.posts[i].likes == CountLikes(r.likes, r.posts[i].id) {
          if i < |db.posts| {
            assert r.posts[i] == db.posts[i];
          }
        }
      }
    }
  }

  /** `DELETE FROM posts WHERE id = ?`: every row with the id goes, the rest
      stay in order. */
  function RemovePost(posts: seq<Post>, id: nat): (r: seq<Post>)
    ensures |r| <= |posts|
    ensures forall p :: multiset(r)[p] == if p.id == id then 0 else multiset(posts)[p]
    ensures forall p :: p in r <==> p in posts && p.id != id
    ensures forall p :: p in r ==> p.id != id
  {
    if |posts| == 0 then []
    else
      assert posts == [posts[0]] + posts[1..];
      (if posts[0].id == id then [] else [posts[0]]) + RemovePost(posts[1..], id)
  }

  /** Putting a row with a fresh id in front keeps ids unique. */
  lemma ConsKeepsUnique(x: Post, rest: seq<Post>)
    requires UniquePostIds(rest)
    requires forall q :: q in rest ==> q.id != x.id
    ensures UniquePostIds([x] + rest)
  {
    var r := [x] + rest;
    forall a, b | 0 <= a < b < |r| ensures r[a].id != r[b].id {
      if a > 0 {
        assert r[a] == rest[a - 1] && r[b] == rest[b - 1];
      } else {
        assert r[b] in rest;
      }
    }
  }

  /** Removal keeps ids unique. */
  lemma {:induction false} RemovePostKeepsUnique(posts: seq<Post>, id: nat)
    requires UniquePostIds(posts)
    ensures UniquePostIds(RemovePost(posts, id))
  {
    if |posts| > 0 {
      var tail := posts[1..];
      assert UniquePostIds(tail) by {
        forall a, b | 0 <= a < b < |tail| ensures tail[a].id != tail[b].id {
          assert tail[a] == posts[a + 1] && tail[b] == posts[b + 1];
        }
      }
      RemovePostKeepsUnique(tail, id);
      var rest := RemovePost(tail, id);
      if posts[0].id != id {
        assert forall q :: q in rest ==> q.id != posts[0].id by {
          forall q | q in rest ensures q.id != posts[0].id {
            assert q in tail;
            var b :| 0 <= b < |tail| && tail[b] == q;
            assert posts[b + 1] == q;
          }
        }
        ConsKeepsUnique(posts[0], rest);
        assert RemovePost(posts, id) == [posts[0]] + rest;
      } else {
        assert RemovePost(posts, id) == rest;
      }
    }
  }

  /** `deletePost`: the row goes; no ownership check, and the like rows that
      named it stay behind (no cascade). */
  function DeletePost(db: Db, postId: nat): (r: Db)
    ensures r.users == db.users && r.likes == db.likes
    ensures r.nextUserId == db.nextUserId && r.nextPostId == db.nextPostId && r.nextLikeId == db.nextLikeId
    ensures !PostExists(r.posts, postId)
    ensures forall p :: p in r.posts <==> p in db.posts && p.id != postId
    ensures forall p :: multiset(r.posts)[p] == if p.id == postId then 0 else multiset(db.posts)[p]
  {
    db.(posts := RemovePost(db.posts, postId))
  }

  /** After a delete, lookups of every other id answer as before. */
  lemma {:induction false} FindAfterRemove(posts: seq<Post>, id: nat, q: nat)
    requires q != id
    ensures FindPostById(RemovePost(posts, id), q) == FindPostById(posts, q)
  {
    if |posts| > 0 {
      var rest := RemovePost(posts[1..], id);
      FindAfterRemove(posts[1..], id, q);
      if posts[0].id == id {
        assert RemovePost(posts, id) == rest;
      } else {
        var r := [posts[0]] + rest;
        assert RemovePost(posts, id) == r;
        assert r[1..] == rest;
      }
    }
  }

  /** Deleting keeps the store invariant: the remaining counters still match
      their rows, and the rows left orphaned keep naming an id below the
      counter, which AUTOINCREMENT never hands out again. */
  lemma DeletePostKeepsValid(db: Db, postId: nat)
    requires Valid(db)
    ensures Valid(DeletePost(db, postId))
  {
    var r := DeletePost(db, postId);
    RemovePostKeepsUnique(db.posts, postId);
    forall i | 0 <= i < |r.posts| ensures r.posts[i].id < r.nextPostId && r.posts[i].likes == CountLikes(r.likes, r.posts[i].id) {
      assert r.posts[i] in db.posts;
    }
  }

  /** The rows whose author name matches, in table order. */
  function Authored(posts: seq<Post>, name: string): seq<Post> {
    if |posts| == 0 then []
    else (if posts[0].username == name then [posts[0]] else []) + Authored(posts[1..], name)
  }

  lemma {:induction false} AuthoredCounts(posts: seq<Post>, name: string)
    ensures |Authored(posts, name)| <= |posts|
    ensures forall p :: multiset(Authored(posts, name))[p] == if p.username == name then multiset(posts)[p] else 0
  {
    if |posts| > 0 {
      AuthoredCounts(posts[1..], name);
      assert posts == [posts[0]] + posts[1..];
    }
  }

  /** `getUserPosts`: every row whose author name matches, as often as the
      table holds it, and no other row. */
  function UserPosts(posts: seq<Post>, name: string): (r: seq<Post>)
    ensures |r| <= |posts|
    ensures forall p :: multiset(r)[p] == if p.username == name then multiset(posts)[p] else 0
    ensures forall p :: p in r <==> p in posts && p.username == name
  {
    AuthoredCounts(posts, name);
    Authored(posts, name)
  }

  lemma {:induction false} AuthoredOfConcat(a: seq<Post>, b: seq<Post>, name: string)
    ensures Authored(a + b, name) == Authored(a, name) + Authored(b, name)
  {
    if |a| == 0 {
      assert a + b == b;
    } else {
      assert (a + b)[1..] == a[1..] + b;
      AuthoredOfConcat(a[1..], b, name);
    }
  }

  /** A post added by a user shows up at the end of that user's list and of
      no one else's. */
  lemma UserPostsAfterAddPost(db: Db, title: string, content: string, user: User,
                              image: Option<string>, now: ClockReading, name: string)
    ensures
      var r := AddPost(db, Some(title), Some(content), Some(user), image, now);
      UserPosts(r.posts, name)
        == UserPosts(db.posts, name) + (if user.username == name then [r.posts[|db.posts|]] else [])
  {
    var r := AddPost(db, Some(title), Some(content), Some(user), image, now);
    var p := r.posts[|db.posts|];
    assert r.posts == db.posts + [p];
    AuthoredOfConcat(db.posts, [p], name);
    assert Authored([p], name) == (if p.username == name then [p] else []) by {
      assert [p][1..] == [];
    }
  }
}

=== FILE: sessions.dfy ===
/** The per-browser session fields the handlers read and write. */
module Sessions {

  import opened Options

  /** `userId` and `loggedIn` mark a signed-in browser; `registeringUser`,
      `registering` and `loggingIn` carry a registration or login across the
      round trip to the identity provider. */
  datatype Session = Session(
    userId: Option<nat>,
    loggedIn: bool,
    registeringUser: Option<string>,
    registering: bool,
    loggingIn: bool)

  /** A browser with no session fields set. */
  const Anonymous := Session(None, false, None, false, false)

  /** `if (req.session.userId)`: JavaScript truthiness, so an undefined id and
      the id 0 both count as signed out. */
  predicate SignedIn(s: Session) {
    s.userId.Some? && s.userId.value != 0
  }
}

=== FILE: store.dfy ===
/** The three tables of the application database (schema in populatedb.js) as
    immutable sequences of rows in rowid order, with the AUTOINCREMENT counters
    that hand out new ids. Lookups return the first matching row, as `db.get`
    does. No foreign-key enforcement is modelled (nothing in the program turns
    it on) and the `likes` table has no UNIQUE constraint on (user, post). */
module Store {

  import opened Options

  /** A `users` row. The table has no email column: the address the identity
      provider returns is never stored. An empty `avatarUrl` stands for both the
      empty string and NULL, which the program treats alike (both falsy). */
  datatype User = User(
    id: nat,
    username: string,
    hashedGoogleId: string,
    avatarUrl: string,
    memberSince: string)

  /** A `posts` row. `username` is the author's name copied at creation time. */
  datatype Post = Post(
    id: nat,
    title: string,
    content: string,
    tag: Option<string>,
    imageUrl: string,
    username: string,
    timestamp: string,
    likes: int)

  /** A `likes` row. */
  datatype Like = Like(id: nat, userId: nat, postId: nat, timestamp: string)

  datatype Db = Db(
    users: seq<User>,
    posts: seq<Post>,
    likes: seq<Like>,
    nextUserId: nat,
    nextPostId: nat,
    nextLikeId: nat)

  // ---------------------------------------------------------------------------
  // Lookups (`SELECT * FROM ... WHERE col = ?` through `db.get`)
  // ---------------------------------------------------------------------------

  function FindUserByUsername(users: seq<User>, name: string): (r: Option<User>)
    ensures r.Some? ==> r.value in users && r.value.username == name
    ensures r.None? <==> forall i :: 0 <= i < |users| ==> users[i].username != name
  {
    if |users| == 0 then None
    else if users[0].username == name then Some(users[0])
    else FindUserByUsername(users[1..], name)
  }

  function FindUserById(users: seq<User>, id: nat): (r: Option<User>)
    ensures r.Some? ==> r.value in users && r.value.id == id
    ensures r.None? <==> forall i :: 0 <= i < |users| ==> users[i].id != id
  {
    if |users| == 0 then None
    else if users[0].id == id then Some(users[0])
    else FindUserById(users[1..], id)
  }

  function FindUserByGoogleId(users: seq<User>, key: string): (r: Option<User>)
    ensures r.Some? ==> r.value in users && r.value.hashedGoogleId == key
    ensures r.None? <==> forall i :: 0 <= i < |users| ==> users[i].hashedGoogleId != key
  {
    if |users| == 0 then None
    else if users[0].hashedGoogleId == key then Some(users[0])
    else FindUserByGoogleId(users[1..], key)
  }

  function FindPostById(posts: seq<Post>, id: nat): (r: Option<Post>)
    ensures r.Some? ==> r.value in posts && r.value.id == id
    ensures r.None? <==> forall i :: 0 <= i < |posts| ==> posts[i].id != id
  {
    if |posts| == 0 then None
    else if posts[0].id == id then Some(posts[0])
    else FindPostById(posts[1..], id)
  }

  predicate PostExists(posts: seq<Post>, id: nat) {
    FindPostById(posts, id).Some?
  }

  /** Position of the row `FindPostById` returns. */
  function PostIndex(posts: seq<Post>, id: nat): (k: nat)
    requires PostExists(posts, id)
    ensures k < |posts| && posts[k] == FindPostById(posts, id).value
  {
    if posts[0].id == id then 0 else 1 + PostIndex(posts[1..], id)
  }

  /** Number of like rows for the pair (u, p). */
  function CountPair(likes: seq<Like>, u: nat, p: nat): nat {
    if |likes| == 0 then 0
    else (if likes[0].userId == u && likes[0].postId == p then 1 else 0) + CountPair(likes[1..], u, p)
  }

  /** `SELECT * FROM likes WHERE user_id = ? AND post_id = ?` finds a row. */
  predicate HasLike(likes: seq<Like>, u: nat, p: nat) {
    CountPair(likes, u, p) > 0
  }

  /** The lookup finds a row exactly when some row carries the pair. */
  lemma {:induction false} HasLikeIffRow(likes: seq<Like>, u: nat, p: nat)
    ensures HasLike(likes, u, p) <==> exists l :: l in likes && l.userId == u && l.postId == p
  {
    if |likes| > 0 {
      HasLikeIffRow(likes[1..], u, p);
      assert likes == [likes[0]] + likes[1..];
      if exists l :: l in likes && l.userId == u && l.postId == p {
        var l :| l in likes && l.userId == u && l.postId == p;
        if l != likes[0] {
          assert l in likes[1..];
        }
      }
    }
  }

  /** Number of like rows referencing post p. */
  function CountLikes(likes: seq<Like>, p: nat): nat {
    if |likes| == 0 then 0
    else (if likes[0].postId == p then 1 else 0) + CountLikes(likes[1..], p)
  }

  // ---------------------------------------------------------------------------
  // Store invariant: the schema's keys and UNIQUE constraints, the counters
  // ahead of every id handed out, and the like ledger agreeing with the
  // denormalised `likes` column.
  // ---------------------------------------------------------------------------

  predicate UniqueUserIds(users: seq<User>) {
    forall i, j :: 0 <= i < j < |users| ==> users[i].id != users[j].id
  }

  predicate UniqueUsernames(users: seq<User>) {
    forall i, j :: 0 <= i < j < |users| ==> users[i].username != users[j].username
  }

  predicate UniqueGoogleIds(users: seq<User>) {
    forall i, j :: 0 <= i < j < |users| ==> users[i].hashedGoogleId != users[j].hashedGoogleId
  }

  predicate UniquePostIds(posts: seq<Post>) {
    forall i, j :: 0 <= i < j < |posts| ==> posts[i].id != posts[j].id
  }

  predicate UniqueLikeIds(likes: seq<Like>) {
    forall i, j :: 0 <= i < j < |likes| ==> likes[i].id != likes[j].id
  }

  /** At most one like row per (user, post) pair. */
  ghost predicate AtMostOneLikePerPair(likes: seq<Like>) {
    forall u, p :: CountPair(likes, u, p) <= 1
  }

  /** Every post's `likes` column equals the number of like rows for it. */
  predicate LikesCounted(posts: seq<Post>, likes: seq<Like>) {
    forall i :: 0 <= i < |posts| ==> posts[i].likes == CountLikes(likes, posts[i].id)
  }

  ghost predicate Valid(db: Db) {
    && UniqueUserIds(db.users)
    && UniqueUsernames(db.users)
    && UniqueGoogleIds(db.users)
    && db.nextUserId >= 1
    && (forall i :: 0 <= i < |db.users| ==> 1 <= db.users[i].id < db.nextUserId)
    && UniquePostIds(db.posts)
    && (forall i :: 0 <= i < |db.posts| ==> db.posts[i].id < db.nextPostId)
    && UniqueLikeIds(db.likes)
    && (forall i :: 0 <= i < |db.likes| ==> db.likes[i].id < db.nextLikeId && db.likes[i].postId < db.nextPostId)
    && AtMostOneLikePerPair(db.likes)
    && LikesCounted(db.posts, db.likes)
  }

  /** Two user tables that agree row by row on id, name and key. */
  predicate SameAccounts(a: seq<User>, b: seq<User>) {
    |a| == |b| &&
    forall i :: 0 <= i < |a| ==>
      a[i].id == b[i].id && a[i].username == b[i].username && a[i].hashedGoogleId == b[i].hashedGoogleId
  }

  /** Rewriting columns other than id, name and key keeps the invariant. */
  lemma ValidWithSameAccounts(db: Db, users: seq<User>)
    requires Valid(db) && SameAccounts(db.users, users)
    ensures Valid(db.(users := users))
  {
    assert UniqueUserIds(users) by {
      forall i, j | 0 <= i < j < |users| ensures users[i].id != users[j].id {
        assert db.users[i].id != db.users[j].id;
      }
    }
    assert UniqueUsernames(users) by {
      forall i, j | 0 <= i < j < |users| ensures users[i].username != users[j].username {
        assert db.users[i].username != db.users[j].username;
      }
    }
    assert UniqueGoogleIds(users) by {
      forall i, j | 0 <= i < j < |users| ensures users[i].hashedGoogleId != users[j].hashedGoogleId {
        assert db.users[i].hashedGoogleId != db.users[j].hashedGoogleId;
      }
    }
  }

  /** Appending a row with the next id, a free name and a free key keeps the
      invariant. */
  lemma ValidAfterAppendUser(db: Db, row: User)
    requires Valid(db) && row.id == db.nextUserId
    requires FindUserByUsername(db.users, row.username).None?
    requires FindUserByGoogleId(db.users, row.hashedGoogleId).None?
    ensures Valid(db.(users := db.users + [row], nextUserId := db.nextUserId + 1))
  {
    var users := db.users + [row];
    assert forall i :: 0 <= i < |db.users| ==> users[i] == db.users[i];
    assert users[|db.users|] == row;
    assert UniqueUserIds(users) by {
      forall i, j | 0 <= i < j < |users| ensures users[i].id != users[j].id {
        if j < |db.users| {
          assert db.users[i].id != db.users[j].id;
        }
      }
    }
    assert UniqueUsernames(users) by {
      forall i, j | 0 <= i < j < |users| ensures users[i].username != users[j].username {
        if j < |db.users| {
          assert db.users[i].username != db.users[j].username;
        }
      }
    }
    assert UniqueGoogleIds(users) by {
      forall i, j | 0 <= i < j < |users| ensures users[i].hashedGoogleId != users[j].hashedGoogleId {
        if j < |db.users| {
          assert db.users[i].hashedGoogleId != db.users[j].hashedGoogleId;
        }
      }
    }
  }

  /** With unique post ids, the lookup by id returns the one row holding it. */
  lemma {:induction false} FindPostByUniqueId(posts: seq<Post>, i: nat)
    requires UniquePostIds(posts) && i < |posts|
    ensures FindPostById(posts, posts[i].id) == Some(posts[i])
  {
    if i > 0 {
      assert posts[0].id != posts[i].id;
      assert UniquePostIds(posts[1..]) by {
        forall a, b | 0 <= a < b < |posts| - 1
          ensures posts[1..][a].id != posts[1..][b].id
        {
          assert posts[1..][a] == posts[a + 1] && posts[1..][b] == posts[b + 1];
        }
      }
      FindPostByUniqueId(posts[1..], i - 1);
      assert posts[1..][i - 1] == posts[i];
    }
  }

  /** With unique user ids, the lookup by id returns the one row holding it. */
  lemma {:induction false} FindUserByUniqueId(users: seq<User>, i: nat)
    requires UniqueUserIds(users) && i < |users|
    ensures FindUserById(users, users[i].id) == Some(users[i])
  {
    if i > 0 {
      assert users[0].id != users[i].id;
      assert UniqueUserIds(users[1..]) by {
        forall a, b | 0 <= a < b < |users| - 1
          ensures users[1..][a].id != users[1..][b].id
        {
          assert users[1..][a] == users[a + 1] && users[1..][b] == users[b + 1];
        }
      }
      FindUserByUniqueId(users[1..], i - 1);
      assert users[1..][i - 1] == users[i];
    }
  }

  /** The empty database the schema script creates, before sample data. */
  function EmptyDb(): (db: Db)
    ensures Valid(db)
    ensures db.users == [] && db.posts == [] && db.likes == []
  {
    Db([], [], [], 1, 1, 1)
  }
}

=== FILE: text.dfy ===
/** The JavaScript string operations the application relies on: decimal
    rendering of a non-negative number (`'' + n`), `charAt(0).toUpperCase()`
    and `String.prototype.replace` with a string pattern. */
module JsText {

  import opened Options

  predicate IsDigit(c: char) {
    '0' <= c <= '9'
  }

  predicate AllDigits(s: string) {
    forall i :: 0 <= i < |s| ==> IsDigit(s[i])
  }

  function DigitChar(d: nat): (c: char)
    requires d < 10
    ensures IsDigit(c)
    ensures c as int - '0' as int == d
  {
    ('0' as int + d) as char
  }

  /** Decimal rendering of a number the way JavaScript concatenation does it:
      no sign, no padding. */
  function NatToString(n: nat): (s: string)
    ensures |s| >= 1
    ensures AllDigits(s)
    ensures n < 10 <==> |s| == 1
    decreases n
  {
    if n < 10 then [DigitChar(n)] else NatToString(n / 10) + [DigitChar(n % 10)]
  }

  /** The number a string of decimal digits denotes. */
  function DigitsValue(s: string): nat
    requires AllDigits(s)
  {
    if |s| == 0 then 0 else DigitsValue(s[..|s| - 1]) * 10 + (s[|s| - 1] as int - '0' as int)
  }

  /** Reading the rendering back gives the number again. */
  lemma {:induction false} DigitsValueOfNatToString(n: nat)
    ensures DigitsValue(NatToString(n)) == n
  {
    if n >= 10 {
      var s := NatToString(n);
      assert s[..|s| - 1] == NatToString(n / 10);
      DigitsValueOfNatToString(n / 10);
    }
  }

  /** No zero padding: a rendering starts with '0' only when the number is 0. */
  lemma {:induction false} NoLeadingZero(n: nat)
    ensures NatToString(n)[0] == '0' <==> n == 0
  {
    if n >= 10 {
      NoLeadingZero(n / 10);
      assert NatToString(n)[0] == NatToString(n / 10)[0];
    }
  }

  /** Number of leading decimal digits of `s`. */
  function LeadingDigits(s: string): (k: nat)
    ensures k <= |s|
    ensures forall i :: 0 <= i < k ==> IsDigit(s[i])
    ensures k < |s| ==> !IsDigit(s[k])
  {
    if |s| == 0 || !IsDigit(s[0]) then 0 else 1 + LeadingDigits(s[1..])
  }

  /** Reads a non-empty run of digits off the front of `s`, returning its value
      and the rest of the string. */
  function ReadNat(s: string): (r: Option<(nat, string)>)
    ensures r.Some? <==> |s| > 0 && IsDigit(s[0])
  {
    var k := LeadingDigits(s);
    if k == 0 then None else Some((DigitsValue(s[..k]), s[k..]))
  }

  /** A rendered number followed by anything that does not start with a digit
      reads back as that number and that remainder. */
  lemma ReadNatOfRendering(n: nat, rest: string)
    requires |rest| == 0 || !IsDigit(rest[0])
    ensures ReadNat(NatToString(n) + rest) == Some((n, rest))
  {
    var d := NatToString(n);
    var s := d + rest;
    var k := LeadingDigits(s);
    assert forall i :: 0 <= i < |d| ==> s[i] == d[i];
    assert |rest| > 0 ==> s[|d|] == rest[0];
    assert k == |d|;
    assert s[..k] == d;
    assert s[k..] == rest;
    DigitsValueOfNatToString(n);
  }

  /** `ch.toUpperCase()` on the ASCII range: 'a'..'z' map to 'A'..'Z', every
      other character is left alone. */
  function ToUpperAscii(c: char): (u: char)
    ensures 'a' <= c <= 'z' ==> 'A' <= u <= 'Z' && u as int - 'A' as int == c as int - 'a' as int
    ensures !('a' <= c <= 'z') ==> u == c
  {
    if 'a' <= c <= 'z' then (c as int - 'a' as int + 'A' as int) as char else c
  }

  /** `s.charAt(0).toUpperCase()`: the empty string when `s` is empty. */
  function FirstCharUpper(s: string): (g: string)
    ensures |g| <= 1
    ensures g == "" <==> s == ""
    ensures |s| > 0 ==> g[0] == ToUpperAscii(s[0])
  {
    if |s| == 0 then "" else [ToUpperAscii(s[0])]
  }

  predicate OccursAt(s: string, pat: string, i: nat) {
    i + |pat| <= |s| && s[i..i + |pat|] == pat
  }

  /** Index of the first occurrence of `pat` in `s` at or after `from`. */
  function IndexOfFrom(s: string, pat: string, from: nat): (r: Option<nat>)
    ensures r.Some? ==> from <= r.value && OccursAt(s, pat, r.value)
    ensures r.Some? ==> forall j :: from <= j < r.value ==> !OccursAt(s, pat, j)
    ensures r.None? ==> forall j :: from <= j ==> !OccursAt(s, pat, j)
    decreases |s| - from
  {
    if from + |pat| > |s| then None
    else if s[from..from + |pat|] == pat then Some(from)
    else IndexOfFrom(s, pat, from + 1)
  }

  /** `s.indexOf(pat)`, with `None` for JavaScript's -1. */
  function IndexOf(s: string, pat: string): (r: Option<nat>)
    ensures r.Some? ==> OccursAt(s, pat, r.value) && forall j: nat :: j < r.value ==> !OccursAt(s, pat, j)
    ensures r.None? ==> forall j: nat :: !OccursAt(s, pat, j)
  {
    IndexOfFrom(s, pat, 0)
  }

  /** `s.replace(pat, rep)` with a string pattern: only the FIRST occurrence is
      replaced (the replacement strings used here hold no `$` patterns). A
      string without the pattern is unchanged, a leading occurrence is
      swapped for `rep`, and at most one occurrence goes. */
  function ReplaceFirst(s: string, pat: string, rep: string): (r: string)
    ensures (forall j: nat :: !OccursAt(s, pat, j)) ==> r == s
    ensures |pat| > 0 && OccursAt(s, pat, 0) ==> r == rep + s[|pat|..]
    ensures |r| == |s| || |r| == |s| - |pat| + |rep|
    ensures IndexOf(s, pat).Some? ==>
      var i := IndexOf(s, pat).value;
      r == s[..i] + rep + s[i + |pat|..]
  {
    match IndexOf(s, pat)
    case None => s
    case Some(i) =>
      assert |pat| > 0 && OccursAt(s, pat, 0) ==> i == 0;
      s[..i] + rep + s[i + |pat|..]
  }
}

=== FILE: timestamp.dfy ===
/** `getNewTimeStamp` (helpers/support.js): the creation time stored with users,
    posts and likes. The clock is a parameter; the stamp joins the full year,
    the 0-based month index, the WEEKDAY (`getDay`) and the hours and minutes,
    each rendered without padding. */
module TimeStamp {

  import opened Options
  import opened JsText

  /** The readings of a JavaScript `Date` that matter here. `date` is the day of
      the month, which the stamp does not use. */
  datatype ClockReading = ClockReading(
    fullYear: nat,
    monthIndex: nat,
    date: nat,
    weekday: nat,
    hours: nat,
    minutes: nat)

  predicate ValidReading(c: ClockReading) {
    && c.monthIndex < 12
    && 1 <= c.date <= 31
    && c.weekday < 7
    && c.hours < 24
    && c.minutes < 60
  }

  /** The five numbers a stamp carries, in order. */
  datatype StampFields = StampFields(year: nat, month: nat, day: nat, hour: nat, minute: nat)

  /** What `getNewTimeStamp` reads from the clock. */
  function Fields(c: ClockReading): StampFields {
    StampFields(c.fullYear, c.monthIndex, c.weekday, c.hours, c.minutes)
  }

  /** year + '-' + month + '-' + day + ' ' + hour + ':' + minute, each number
      rendered as string concatenation renders it. */
  function Stamp(f: StampFields): string {
    NatToString(f.year) + ("-" + (NatToString(f.month) + ("-" + (NatToString(f.day)
      + (" " + (NatToString(f.hour) + (":" + NatToString(f.minute))))))))
  }

  /** `getNewTimeStamp`: the stamp of the clock reading. It holds the five
      unpadded renderings of the fields the code reads and four separators,
      nothing more; `ParseStamp` reads the fields back. */
  function NewTimeStamp(c: ClockReading): (s: string)
    ensures |s| == |NatToString(c.fullYear)| + |NatToString(c.monthIndex)| + |NatToString(c.weekday)|
                   + |NatToString(c.hours)| + |NatToString(c.minutes)| + 4
    ensures s[..|NatToString(c.fullYear)|] == NatToString(c.fullYear)
  {
    Stamp(Fields(c))
  }

  function ExpectChar(s: string, c: char): (r: Option<string>)
    ensures r.Some? <==> |s| > 0 && s[0] == c
    ensures r.Some? ==> r.value == s[1..]
  {
    if |s| > 0 && s[0] == c then Some(s[1..]) else None
  }

  /** Reads a stamp of the shape `getNewTimeStamp` produces. */
  function ParseTimeStamp(s: string): Option<StampFields> {
    var y :- ReadNat(s);
    var s1 :- ExpectChar(y.1, '-');
    var m :- ReadNat(s1);
    var s2 :- ExpectChar(m.1, '-');
    var d :- ReadNat(s2);
    var s3 :- ExpectChar(d.1, ' ');
    var h :- ReadNat(s3);
    var s4 :- ExpectChar(h.1, ':');
    var mi :- ReadNat(s4);
    if mi.1 == "" then Some(StampFields(y.0, m.0, d.0, h.0, mi.0)) else None
  }

  /** Every stamp reads back as the five fields it was made from. */
  lemma ParseStamp(f: StampFields)
    ensures ParseTimeStamp(Stamp(f)) == Some(f)
  {
    var tail4 := ":" + NatToString(f.minute);
    var tail3 := " " + (NatToString(f.hour) + tail4);
    var tail2 := "-" + (NatToString(f.day) + tail3);
    var tail1 := "-" + (NatToString(f.month) + tail2);
    ReadNatOfRendering(f.year, tail1);
    ReadNatOfRendering(f.month, tail2);
    ReadNatOfRendering(f.day, tail3);
    ReadNatOfRendering(f.hour, tail4);
    ReadNatOfRendering(f.minute, "");
    assert NatToString(f.minute) + "" == NatToString(f.minute);
  }

  /** Two clock readings give the same stamp exactly when they agree on year,
      month index, weekday, hours and minutes: the day of the month is lost,
      nothing else is. */
  lemma TimeStampsEqualIff(c1: ClockReading, c2: ClockReading)
    ensures NewTimeStamp(c1) == NewTimeStamp(c2) <==> Fields(c1) == Fields(c2)
  {
    if NewTimeStamp(c1) == NewTimeStamp(c2) {
      ParseStamp(Fields(c1));
      ParseStamp(Fields(c2));
    }
  }

  /** Readings a week apart at the same time of day, in the same month, share a
      stamp. */
  lemma SameStampAWeekApart(c: ClockReading)
    requires ValidReading(c) && c.date + 7 <= 31
    ensures NewTimeStamp(c) == NewTimeStamp(c.(date := c.date + 7))
    ensures c != c.(date := c.date + 7)
  {
    TimeStampsEqualIff(c, c.(date := c.date + 7));
  }

  /** Monday 15 January 2024, 09:05 is stamped "2024-0-1 9:5". */
  lemma JanuaryFifteenthExample()
    ensures NewTimeStamp(ClockReading(2024, 0, 15, 1, 9, 5)) == "2024-0-1 9:5"
  {
    assert NatToString(2) == "2";
    assert NatToString(20) == "20";
    assert NatToString(202) == "202";
    assert NatToString(2024) == "2024";
  }
}

=== FILE: webroutes.dfy ===
/** The handlers of helpers/webRoutes.js that change state: POST /posts (the
    validation ladder in front of `addPost`), POST /register and POST /login
    (the session flags read by the identity provider's callback) and
    POST /delete/:id behind `isAuthenticated`. */
module WebRoutes {

  import opened Options
  import opened Store
  import opened Sessions
  import opened TimeStamp
  import opened Http
  import opened Posts

  /** A body field as a template literal renders it: an absent field prints
      as "undefined". */
  function Interpolate(v: Option<string>): (s: string)
    ensures v.Some? ==> s == v.value
    ensures v.None? ==> s == "undefined"
  {
    if v.Some? then v.value else "undefined"
  }

  /** The multipart form of POST /posts: the body fields, and the file name
      multer gave the upload (None when no file was sent). */
  datatype PostForm = PostForm(title: Option<string>, content: Option<string>, tag: Option<string>, upload: Option<string>)

  /** `findUserById(req.session.userId)`: an undefined id binds NULL and
      matches no row. */
  function CurrentUser(db: Db, session: Session): (u: Option<User>)
    ensures u.Some? ==> session.userId.Some? && u.value in db.users && u.value.id == session.userId.value
    ensures session.userId.Some? && (exists i :: 0 <= i < |db.users| && db.users[i].id == session.userId.value) ==> u.Some?
  {
    if session.userId.None? then None else FindUserById(db.users, session.userId.value)
  }

  /** True for a present, empty field: `x === ''`. */
  predicate IsEmpty(v: Option<string>) {
    v == Some("")
  }

  const BothRequired := "/home?error=Title%20and%20Content%20required"
  const ContentRequired := "/home?error=Content%20required&title="
  const TitleRequired := "/home?error=Title%20required&content="

  /** POST /posts. Four outcomes, tried in order: both fields empty, content
      empty, title empty, or accepted. An accepted form always redirects to
      '/', whether or not `addPost` manages to insert. The route passes the
      tag where `addPost` expects the image, and drops the upload: the call
      with the file has a fifth argument `addPost` never reads. */
  function SubmitPost(db: Db, session: Session, form: PostForm, now: ClockReading): (r: Reply)
    ensures r.session == session
    ensures IsEmpty(form.title) && IsEmpty(form.content) ==>
      r.db == db && r.response == Redirect(BothRequired)
    ensures !IsEmpty(form.title) && IsEmpty(form.content) ==>
      r.db == db && r.response == Redirect(ContentRequired + Interpolate(form.title))
    ensures IsEmpty(form.title) && !IsEmpty(form.content) ==>
      r.db == db && r.response == Redirect(TitleRequired + Interpolate(form.content))
    ensures !IsEmpty(form.title) && !IsEmpty(form.content) ==>
      r.db == AddPost(db, form.title, form.content, CurrentUser(db, session), form.tag, now) && r.response == Redirect("/")
  {
    if IsEmpty(form.content) && IsEmpty(form.title) then Reply(db, session, Redirect(BothRequired))
    else if IsEmpty(form.content) then Reply(db, session, Redirect(ContentRequired + Interpolate(form.title)))
    else if IsEmpty(form.title) then Reply(db, session, Redirect(TitleRequired + Interpolate(form.content)))
    else if form.upload.None? then
      Reply(AddPost(db, form.title, form.content, CurrentUser(db, session), form.tag, now), session, Redirect("/"))
    else
      Reply(AddPost(db, form.title, form.content, CurrentUser(db, session), form.tag, now), session, Redirect("/"))
  }

  predicate StartsWith(s: string, prefix: string) {
    |prefix| <= |s| && s[..|prefix|] == prefix
  }

  /** Exactly one rung of the ladder answers, and the four answers differ, so
      the answer names the rung. */
  lemma LadderAnswersDiffer(db: Db, session: Session, form: PostForm, now: ClockReading)
    ensures
      var url := SubmitPost(db, session, form, now).response.url;
      && (url == BothRequired <==> IsEmpty(form.title) && IsEmpty(form.content))
      && (StartsWith(url, ContentRequired) <==> !IsEmpty(form.title) && IsEmpty(form.content))
      && (StartsWith(url, TitleRequired) <==> IsEmpty(form.title) && !IsEmpty(form.content))
      && (url == "/" <==> !IsEmpty(form.title) && !IsEmpty(form.content))
  {
    var url := SubmitPost(db, session, form, now).response.url;
    if IsEmpty(form.title) && IsEmpty(form.content) {
      assert url[12] != ContentRequired[12] && url[20] != TitleRequired[20];
    } else if IsEmpty(form.content) {
      assert StartsWith(url, ContentRequired);
      assert url[12] != TitleRequired[12];
    } else if IsEmpty(form.title) {
      assert StartsWith(url, TitleRequired);
      assert url[12] != ContentRequired[12];
      assert |url| != |BothRequired| || url[20] != BothRequired[20];
    }
  }

  /** A post is added exactly when title and content are both non-empty and
      present, and the session's id names an existing user. */
  lemma SubmitPostAddsIff(db: Db, session: Session, form: PostForm, now: ClockReading)
    ensures
      var r := SubmitPost(db, session, form, now);
      |r.db.posts| == |db.posts| + 1 <==>
        && form.title.Some? && form.title.value != ""
        && form.content.Some? && form.content.value != ""
        && CurrentUser(db, session).Some?
    ensures
      var r := SubmitPost(db, session, form, now);
      |r.db.posts| == |db.posts| + 1 || r.db == db
  {
  }

  /** The uploaded file never reaches the store: two forms that differ only in
      the upload have the same effect. */
  lemma UploadIgnored(db: Db, session: Session, form: PostForm, now: ClockReading, upload: Option<string>)
    ensures SubmitPost(db, session, form.(upload := upload), now) == SubmitPost(db, session, form, now)
  {
  }

  /** An added post takes its `image_url` from the tag field, and its `tag`
      column stays NULL. */
  lemma TagBecomesImage(db: Db, session: Session, form: PostForm, now: ClockReading)
    requires form.title.Some? && form.title.value != "" && form.content.Some? && form.content.value != ""
    requires CurrentUser(db, session).Some?
    ensures
      var r := SubmitPost(db, session, form, now);
      && |r.db.posts| == |db.posts| + 1
      && r.db.posts[|db.posts|].imageUrl == ImageUrl(if form.tag.Some? then form.tag.value else "")
      && r.db.posts[|db.posts|].tag.None?
  {
  }

  /** Submitting a post keeps the store invariant. */
  lemma SubmitPostKeepsValid(db: Db, session: Session, form: PostForm, now: ClockReading)
    requires Valid(db)
    ensures Valid(SubmitPost(db, session, form, now).db)
  {
    AddPostKeepsValid(db, form.title, form.content, CurrentUser(db, session), form.tag, now);
  }

  /** POST /register: remember the chosen name and that a registration is
      under way, then go to the identity provider. */
  function RegisterForm(db: Db, session: Session, username: Option<string>): (r: Reply)
    ensures r.db == db && r.response == Redirect("/auth/google")
    ensures r.session.registering && r.session.registeringUser == username
    ensures r.session.userId == session.userId && r.session.loggedIn == session.loggedIn
    ensures r.session.loggingIn == session.loggingIn
  {
    Reply(db, session.(registeringUser := username, registering := true), Redirect("/auth/google"))
  }

  /** POST /login: remember that a login is under way, then go to the
      identity provider. */
  function LoginForm(db: Db, session: Session): (r: Reply)
    ensures r.db == db && r.response == Redirect("/auth/google")
    ensures r.session.loggingIn
    ensures r.session.userId == session.userId && r.session.loggedIn == session.loggedIn
    ensures r.session.registering == session.registering && r.session.registeringUser == session.registeringUser
  {
    Reply(db, session.(loggingIn := true), Redirect("/auth/google"))
  }

  /** POST /delete/:id: `isAuthenticated` sends a signed-out browser to the
      login page; otherwise the post is deleted, whoever wrote it, and the
      answer is 200. */
  function DeleteRoute(db: Db, session: Session, postId: nat): (r: Reply)
    ensures r.session == session
    ensures !SignedIn(session) ==> r.db == db && r.response == Redirect("/login")
    ensures SignedIn(session) ==> r.db == DeletePost(db, postId) && r.response == Status(200)
  {
    if !SignedIn(session) then Reply(db, session, Redirect("/login"))
    else Reply(DeletePost(db, postId), session, Status(200))
  }

  /** Any signed-in user removes any post: no check compares the post's author
      with the session's user. */
  lemma DeleteIgnoresAuthor(db: Db, session: Session, postId: nat)
    requires SignedIn(session) && UniquePostIds(db.posts) && PostExists(db.posts, postId)
    ensures
      var r := DeleteRoute(db, session, postId);
      && !PostExists(r.db.posts, postId)
      && |r.db.posts| == |db.posts| - 1
      && r.db.likes == db.likes
  {
    var k := PostIndex(db.posts, postId);
    RemoveUniqueLength(db.posts, postId, k);
  }

  /** Removing an id held by exactly one row shortens the table by one. */
  lemma {:induction false} RemoveUniqueLength(posts: seq<Post>, id: nat, k: nat)
    requires UniquePostIds(posts) && k < |posts| && posts[k].id == id
    ensures |RemovePost(posts, id)| == |posts| - 1
  {
    var tail := posts[1..];
    assert UniquePostIds(tail) by {
      forall a, b | 0 <= a < b < |tail| ensures tail[a].id != tail[b].id {
        assert tail[a] == posts[a + 1] && tail[b] == posts[b + 1];
      }
    }
    if k == 0 {
      assert forall i :: 0 <= i < |tail| ==> tail[i].id != id by {
        forall i | 0 <= i < |tail| ensures tail[i].id != id {
          assert tail[i] == posts[i + 1];
        }
      }
      RemoveAbsentKeepsLength(tail, id);
    } else {
      RemoveUniqueLength(tail, id, k - 1);
    }
  }

  lemma {:induction false} RemoveAbsentKeepsLength(posts: seq<Post>, id: nat)
    requires forall i :: 0 <= i < |posts| ==> posts[i].id != id
    ensures RemovePost(posts, id) == posts
  {
    if |posts| > 0 {
      RemoveAbsentKeepsLength(posts[1..], id);
      assert [posts[0]] + posts[1..] == posts;
    }
  }
}
